=== FILE: README.md ===
# Ghost Admin API adapter — request shaping and response routing

This project models the core of `ghost-mcp-server.py`, a small tool server that
exposes Ghost blog operations (create, list and edit posts) and forwards each one
to the Ghost Admin API. The core has three parts:

- **Dispatcher** (`make_ghost_request`). It splits the Admin API key `ID:SECRET`
  and builds the token header and claims (HS256, JWT, `kid` = ID, `exp = iat + 300`,
  `aud = "/v4/admin/"`). It then builds the admin URL and the three request headers,
  and selects GET, POST or PUT from the upper-cased method. Every outcome is folded
  into one dictionary: a key-format error, a signing error, an unsupported method,
  an HTTP status failure, any other failure, or the parsed JSON body.
- **Payload builders.** `create_post` wraps one post and adds `tags` only for a
  non-empty list. `list_posts` builds the query endpoint. `edit_post` merges the
  caller's fields with the fetched post and always carries the fetched `updated_at`.
- **Reply routing.** A dictionary with an `"error"` key becomes an
  `"Error ...: "` message. A success is projected onto a fixed list of fields, in
  order. Shape errors become the "Unexpected response format" or "Error processing
  post data" messages. An empty post list becomes a fixed message.

The model is purely functional. The clock reading (`iat`) is a parameter. The
signer and the network are oracle functions held in `Dispatch.Env`:

- the signer maps header, claims and secret to a token or a failure;
- the network maps a request to a parsed body, a status failure or another failure.

Every tool returns a `Handlers.Run`: its reply together with the requests it sent,
in order. So "no request", "exactly one request" and "no PUT after a failed GET"
are stated about that list.

Python semantics the handlers depend on are modelled explicitly in `JsonModel`:

- `v["k"]` and `v[0]` raise `KeyError`, `IndexError` or `TypeError`;
- `"error" in v` is a key test on a dict, an element test on a list, a substring
  test on a string, and a `TypeError` otherwise;
- truthiness;
- a dict literal built from lookups.

The handlers catch only `KeyError` and `IndexError`. A `TypeError` escapes the
tool, whether it comes from an answer that is a JSON number or from a first post
that is not a dict inside the `try`; the model reports it as `Reply.Raised`.

Files: `wrappers.dfy` (Option/Result), `text.dfy` (`str.split`, `str.upper`,
`str(int)`, substring test), `json.dfy` (JSON values and Python subscripting),
`auth.dfy` (key split, token header and claims), `dispatch.dfy`
(`make_ghost_request`), `handlers.dfy` (the three tools).

The model follows the code as written, including these behaviours a reader
might not expect:

- The key is accepted when it splits into exactly two parts. The parts may be
  empty (`":"` is accepted).
- Non-dictionary shapes can raise `TypeError` out of a tool. The code does not
  always turn them into a string.
- In a status failure, the URL and headers are those the HTTP client reports for
  the request. That includes headers the client adds itself, not only the three
  the code sets.
- A successful body may be any JSON value, not only an object.

## Model

| member | source | states |
|---|---|---|
| Auth.KeyParts | ghost-mcp-server.py:36-40 | the key is accepted iff it contains exactly one colon; the two parts are then colon-free, may be empty, and re-join to the key with one colon |
| Auth.KeyPartsOfJoined | ghost-mcp-server.py:36-40 | every colon-free ID and SECRET joined by one colon is read back as exactly that ID and SECRET |
| Text.SplitCount | ghost-mcp-server.py:36 | `split(':')` yields one piece more than there are colons, so "two parts" means "exactly one colon" |
| Text.SplitJoin | ghost-mcp-server.py:36 | joining the pieces of `split(':')` with ':' gives the key back |
| Text.SplitPiecesFree | ghost-mcp-server.py:36 | no piece of `split(':')` contains a colon |
| Text.SplitAround | ghost-mcp-server.py:36 | splitting `a + ":" + b` is splitting `a` followed by splitting `b` |
| Text.Split | ghost-mcp-server.py:36 | Python's `str.split(':')`, with at least one piece; characterised by `SplitCount`, `SplitJoin`, `SplitPiecesFree` and `SplitAround` |
| Auth.TokenClaims | ghost-mcp-server.py:43-50 | the claims expire exactly 300 seconds after the issue time |
| Auth.TokenHeader | ghost-mcp-server.py:52-56 | the token header names the ID part as `kid`; with `WireConstants` it is exactly {HS256, JWT, kid = ID} |
| Dispatch.MakeRequest | ghost-mcp-server.py:30-97 | a bad key gives the key-format error and sends nothing; whenever nothing is sent the result has an "error" key; a sent request used an accepted key, a method whose upper-case form is the verb, the URL base + "/ghost/api/v4/admin/" + endpoint, a body only for POST/PUT, and its outcome is what gets folded |
| Dispatch.SigningInputs | ghost-mcp-server.py:43-66 | the signer receives header {HS256, JWT, kid = ID}, claims {iat, iat + 300, "/v4/admin/"} and the SECRET; if it fails the result is {"error": "Failed to generate JWT token: " + reason} and nothing is sent |
| Dispatch.SentRequest | ghost-mcp-server.py:52-82 | with a good key, a working signer and a supported method exactly one request goes out, to the admin URL, with Authorization "Ghost " + token, Content-Type application/json, Accept-Version v4, and a body only for POST/PUT |
| Dispatch.UnsupportedMethod | ghost-mcp-server.py:77-84 | a method whose upper-case form is not GET, POST or PUT gives {"error": "Unsupported method: " + method} in the caller's spelling and sends nothing |
| Dispatch.SelectVerb | ghost-mcp-server.py:77-84 | a verb is selected iff the upper-cased method is GET, POST or PUT, and then it is that verb |
| Dispatch.SelectVerbCaseless | ghost-mcp-server.py:77-82 | for ASCII methods, selection is exactly a case-insensitive spelling of the verb, in both directions |
| Text.UpperAscii | ghost-mcp-server.py:77 | on ASCII text `upper()` acts character by character and keeps the length |
| Text.Upper | ghost-mcp-server.py:77 | Python's `str.upper()`; characterised on ASCII text by `UpperAscii` and on the long s by `LongSSelectsPost` |
| Text.UpperChar | ghost-mcp-server.py:77 | the upper-case form of one character, never empty; characterised by `UpperAscii` and `LongSSelectsPost` |
| Dispatch.LongSSelectsPost | ghost-mcp-server.py:79-80 | because `upper()` maps the long s to S, "poſt" is sent as a POST |
| Dispatch.OutcomeFolding | ghost-mcp-server.py:86-97 | a parsed body is returned unchanged; a status failure gives exactly error, status_code, url, headers and response_text with code, URL and text unmodified; any other failure gives only {"error": text}; there is one request and no retry |
| Dispatch.Normalise | ghost-mcp-server.py:86-97 | a parsed body is returned unchanged; every other outcome becomes a dictionary whose "error" is the failure's description (the full shape is `OutcomeFolding`) |
| Dispatch.HeadersJson | ghost-mcp-server.py:93 | the headers as reported by the client (lower-case names, one entry per name) become a dictionary with one member per entry, in the order reported, each value a string |
| Dispatch.FailuresCarryError | ghost-mcp-server.py:36-97 | every result that is not a parsed body has an "error" key, so the handlers' `"error" in response` test sees every dispatcher failure |
| JsonModel.Subscript | ghost-mcp-server.py:133-141 | `v["k"]` on a dict succeeds iff the key is present and otherwise raises KeyError; `xs[0]` on a non-empty list is its head; IndexError arises only from positions on lists or strings; non-containers raise TypeError |
| JsonModel.Contains | ghost-mcp-server.py:128 | `"error" in v` is the key test on a dict and raises TypeError exactly on values that are not dicts, lists or strings |
| JsonModel.Project | ghost-mcp-server.py:134-140 | a successful projection has exactly the requested keys in order, each holding the looked-up value; a failure is the error of the first field whose lookup fails, after all earlier lookups succeeded |
| JsonModel.ProjectObject | ghost-mcp-server.py:133-141 | projecting a dict succeeds iff every field is present, carries the stored values in field order, and otherwise raises KeyError for a missing field |
| JsonModel.ProjectEach | ghost-mcp-server.py:241-249 | a successful loop gives one projection per post in response order; a failure is the error of the first post whose projection fails |
| JsonModel.ProjectEachObjects | ghost-mcp-server.py:241-249 | over a list of objects the loop succeeds iff every post has every field, and otherwise raises KeyError |
| JsonModel.ProjectFirstMissing | ghost-mcp-server.py:134-140 | an object lacking a field raises KeyError for the first missing field in literal order, after the earlier lookups succeeded |
| JsonModel.ProjectNonObject | ghost-mcp-server.py:134-141 | projecting a value that is not a dict raises TypeError at the first field |
| JsonModel.ProjectEachNonObject | ghost-mcp-server.py:242-249 | when the posts before position i hold every field and the post at i is not a dict, the loop raises TypeError there |
| Text.IntToStringRoundTrip | ghost-mcp-server.py:225 | the rendering of the limit reads back as the same integer |
| Text.IntToString | ghost-mcp-server.py:225 | `str(limit)`: a non-empty run of digits and minus signs, characterised by `IntToStringRoundTrip` |
| Handlers.TagObjectsRoundTrip | ghost-mcp-server.py:119-122 | the tag list holds one {"name": tag} object per tag, in input order, and reads back as the caller's tags |
| Handlers.TagObjects | ghost-mcp-server.py:119-122 | the `{"name": tag}` list, as long as the tag list; characterised by `TagObjectsRoundTrip` (the same comprehension is lines 290-292) |
| Handlers.CreatePayloadShape | ghost-mcp-server.py:110-122 | the payload holds exactly one post whose keys are title, html, status and, iff the tag list is non-empty, tags, in that order and nothing else; title, html = content and status carry the arguments and tags reads back as the tags in order |
| Handlers.CreatePayload | ghost-mcp-server.py:110-122 | the body `create_post` sends; characterised by `CreatePayloadShape` |
| Handlers.CreatePost | ghost-mcp-server.py:110-126 | at most one request is sent, a POST of that payload to base + "/ghost/api/v4/admin/posts/?source=html" |
| Handlers.CreatePostSends | ghost-mcp-server.py:126-128 | with an accepted key and a working signer the POST is sent, exactly once, and the reply is the routing of its outcome |
| Handlers.CreateReply | ghost-mcp-server.py:128-142 | only an object with "error" gives "Error creating post: "; a shape error gives "Unexpected response format: " with the whole answer; a success is a five-field object; only TypeError escapes; never plain text; on a dict answer without "error" whose `posts[0]` is not a dict, the TypeError raised inside the try escapes instead of giving "Unexpected response format" |
| Handlers.CreateRaised | ghost-mcp-server.py:131-142 | on a dict answer without "error", `create_post` raises iff `response["posts"][0]` raises TypeError or is not a dict, because the except clause names only KeyError and IndexError |
| Handlers.ErrorReply | ghost-mcp-server.py:128-129 | `response['error']` after the membership test; characterised by `ErrorRouting` (also lines 232-233, 270-271, 298-299) |
| Handlers.Unexpected | ghost-mcp-server.py:141-142 | the except clause of `create_post` and `list_posts`; characterised by `CreateUnexpected`, `CreateRaised`, `ListUnexpected` and `ListRaised` |
| Handlers.ErrorRouting | ghost-mcp-server.py:128-129 | a dict answer with "error" becomes "Error creating post: " + value; likewise "Error listing posts: " (lines 232-233) and "Error updating post: " (lines 298-299) |
| Handlers.NonContainerRaises | ghost-mcp-server.py:128 | an answer that is not a dict, list or string makes create, list and the routing of edit's PUT answer raise TypeError instead of replying (the GET answer is `EditFetchRaises`) |
| Handlers.InvalidKeyEverywhere | ghost-mcp-server.py:36-38 | with a malformed key, create, list and edit each reply with the key-format message under their own prefix and send no request |
| Handlers.SigningFailureEverywhere | ghost-mcp-server.py:58-66 | with a well-formed key whose token cannot be produced, create, list and edit each reply "Failed to generate JWT token: " + the signer's text under their own prefix and send nothing |
| Handlers.CreateSuccess | ghost-mcp-server.py:132-140 | a well-formed answer is reduced to id, title, url, status and created_at of the first post, in that order |
| Handlers.CreateUnexpected | ghost-mcp-server.py:132-142 | an answer without "posts", with an empty list, or whose first post lacks one of the five fields gives "Unexpected response format: " followed by the whole answer |
| Handlers.CreateExample | ghost-mcp-server.py:132-140 | the answer for a draft "Hello" post is reduced to exactly its five fields with their values |
| Handlers.ListEndpointRoundTrip | ghost-mcp-server.py:225-227 | the endpoint reads back as the limit and status it was built from; the filter is absent iff status is "all" |
| Handlers.ListEndpoint | ghost-mcp-server.py:225-227 | the query `list_posts` sends; characterised by `ListEndpointRoundTrip` |
| Handlers.ListPosts | ghost-mcp-server.py:225-230 | at most one request is sent, a GET without body to the admin URL of the list endpoint |
| Handlers.ListPostsSends | ghost-mcp-server.py:225-232 | with an accepted key and a working signer the GET is sent, exactly once, and the reply is the routing of its outcome |
| Handlers.ListReply | ghost-mcp-server.py:232-253 | only an object with "error" gives "Error listing posts: "; plain text is only the no-posts message, given iff the dict answer has no "error" and a falsy "posts" value; a shape error gives "Unexpected response format: " with the whole answer; a success lists one summary per post; only TypeError escapes |
| Handlers.ListEmpty | ghost-mcp-server.py:236-239 | for every limit and status, an answer whose "posts" value is falsy (empty list, null, false, 0, "" or empty dict) gives exactly "No posts found matching the criteria." |
| Handlers.SummaryOfPost | ghost-mcp-server.py:243-249 | a post with all five fields is summarised as id, title, status, created_at, updated_at in that order |
| Handlers.ListSummaries | ghost-mcp-server.py:241-251 | a list of well-formed posts gives one summary per post, in response order |
| Handlers.ListUnexpected | ghost-mcp-server.py:236-253 | an answer without "posts", or whose posts are objects one of which lacks a summary field, gives "Unexpected response format: " followed by the whole answer |
| Handlers.ListRaised | ghost-mcp-server.py:236-253 | a truthy "posts" value that is not a list, or a post that is not a dict after well-formed ones, makes `list_posts` raise TypeError instead of giving "Unexpected response format" |
| Handlers.EditPost | ghost-mcp-server.py:268-296 | the GET of the post comes first; at most one PUT follows, to the same URL, only when the GET's answer has no "error" key, and it carries the merged payload |
| Handlers.EditPutIssued | ghost-mcp-server.py:268-296 | with an accepted key, a signer that works at both clock readings, a GET answer without "error" and a merge that succeeds, the GET and then the PUT are sent and the reply is the routing of the PUT's outcome |
| Handlers.EditPutUnsigned | ghost-mcp-server.py:296-299 | when the token for the PUT cannot be produced, the reply is "Error updating post: Failed to generate JWT token: " + the signer's text, after the GET alone |
| Handlers.EditPutRaises | ghost-mcp-server.py:296-311 | once the PUT went out, a dict answer without "error" whose `posts[0]` is not a dict makes `edit_post` raise TypeError, after both requests |
| Handlers.EditAbandoned | ghost-mcp-server.py:273-311 | when the GET's answer has no "error" but the merge raises, the reply is the processing error and only the GET was sent |
| Handlers.EditFetchRaises | ghost-mcp-server.py:268-271 | a GET answer that is not a dict, list or string makes `edit_post` raise TypeError from the membership test, with no PUT sent |
| Handlers.EditFetchPostRaises | ghost-mcp-server.py:273-311 | a dict GET answer without "error" whose `["posts"][0]` raises TypeError or is not a dict makes `edit_post` raise TypeError, with no PUT sent |
| Handlers.EditFetchFailure | ghost-mcp-server.py:268-271 | when the GET's answer carries "error" the reply is "Error retrieving post: " + value and no PUT is issued |
| Handlers.EditedMembersShape | ghost-mcp-server.py:278-292 | the edited post has exactly the keys id, title, html, status, updated_at and, iff the tag list is non-empty, tags, in that order, carrying the given values; tags reads back as the caller's tags in order |
| Handlers.EditMerge | ghost-mcp-server.py:275-292 | the merge succeeds iff every field it must fall back on and updated_at are stored; then each of title/html/status is the argument if given, else the stored value, id is post_id, updated_at is the stored value, and tags is present iff the list is non-empty and reads back as the tags in order |
| Handlers.EditPayload | ghost-mcp-server.py:275-292 | a merged payload exists only when the first fetched post is an object with updated_at, and then starts with id = post_id and ends its fixed part with the stored updated_at; on an object post it can fail only with KeyError; when `["posts"][0]` raises, the merge raises the same error, and when it is not a dict, TypeError (the field values are `EditMerge`) |
| Handlers.EditPayloadMissing | ghost-mcp-server.py:275-284 | without a field the merge must fall back on, or without updated_at, the merge raises KeyError for a missing field |
| Handlers.EditStatusOnly | ghost-mcp-server.py:278-286 | supplying only status "published" keeps the stored title and content verbatim and sends the stored updated_at |
| Handlers.EditMissingTitle | ghost-mcp-server.py:275-281 | without a new title, a stored post lacking "title" makes the merge raise KeyError('title') |
| Handlers.EditMissingField | ghost-mcp-server.py:275-311 | that KeyError is reported as "Error processing post data: 'title'" after the GET alone |
| Handlers.EditFetchNoPosts | ghost-mcp-server.py:273-311 | a GET answer without "posts" gives "Error processing post data: 'posts'" after the GET alone |
| Handlers.EditFetchNoPost | ghost-mcp-server.py:273-311 | a GET answer with an empty post list gives "Error processing post data: list index out of range" after the GET alone |
| Handlers.EditStoredIncomplete | ghost-mcp-server.py:273-311 | a fetched post lacking a needed field gives "Error processing post data: " followed by the quoted name of a missing field, after the GET alone |
| Handlers.UpdateSuccess | ghost-mcp-server.py:301-309 | a well-formed update answer is reduced to id, title, url, status and updated_at of the first post, in that order |
| Handlers.UpdateMalformed | ghost-mcp-server.py:301-311 | an update answer without "posts", with an empty list, or lacking one of the five fields gives a reply starting "Error processing post data: " |
| Handlers.UpdateReply | ghost-mcp-server.py:298-311 | only an object with "error" gives "Error updating post: "; plain text always starts "Error processing post data: "; a success is a five-field object; only TypeError escapes; on a dict answer without "error" whose `posts[0]` is not a dict, the TypeError raised inside the try escapes past line 310 instead of giving "Error processing post data" |
| Handlers.UpdateRaised | ghost-mcp-server.py:301-311 | on a dict PUT answer without "error", `edit_post` raises iff `response["posts"][0]` raises TypeError or is not a dict |
| Handlers.ProcessingReply | ghost-mcp-server.py:310-311 | the except clause of `edit_post`; characterised by `EditFetchNoPosts`, `EditFetchNoPost`, `EditMissingField`, `UpdateMissingPosts`, `UpdateMissingField` and, for TypeError, `UpdateRaised` |
| Handlers.ErrorText | ghost-mcp-server.py:311 | `str(e)` of a KeyError or IndexError; its texts are pinned by `UpdateMissingPosts` and `UpdateMissingField` |
| Handlers.UpdateMissingPosts | ghost-mcp-server.py:301-311 | an update answer without "posts" gives "Error processing post data: 'posts'", and one with an empty list "Error processing post data: list index out of range" |
| Handlers.UpdateMissingField | ghost-mcp-server.py:301-311 | an update post lacking a field gives "Error processing post data: " followed by the quoted name of the first missing of id, title, url, status, updated_at |

## Left out

- `debug_api_connection`: a network diagnostic. It repeats the dispatcher's request shaping (key split, claims, token header, auth headers) and adds only diagnostics around one fixed GET. It also fails in ways the rest of the server does not: it returns a dict on a bad key and references an undefined name on its exception path.
- Process setup: `.env` loading, reading configuration from the environment, the tool-host registration and the command-line entry point. The base URL and key are plain strings in `Dispatch.Env`; the case where the environment variables are unset is not modelled.
- Tool argument defaults (`status="draft"`, `limit=10`, `status="all"`) belong to the tool host; the model takes every argument explicitly.
- The HTTP client, async execution and the 30-second timeout: replaced by the network oracle. A timeout, a transport error or a body that is not JSON all appear as the `Failed` outcome.
- `time.time()`: the issue time is a parameter (two of them for `edit_post`).
- Token signing: hex decoding of the secret and HMAC-SHA256 signing (RFC 7519 / RFC 7518 section 3.2) are foreign library calls. They are the signer oracle, which returns a token or a failure description.
- Text rendering: `json.dumps(..., indent=2)`, `json.dumps(response)` and `str()` of a non-string value are kept as structured `Reply` variants, not as text.
- JSON floating-point numbers: `Json` has integers only.
- Text.Upper: exact for ASCII and for the non-ASCII characters that upper-case to ASCII letters alone: sharp s, dotless i, long s, and the ff, fi, fl, ffi, ffl, long-s t and st ligatures. Every other character is left as it is, although Python may change it (é becomes É). None of those characters upper-cases to letters of GET, POST or PUT, so method selection is unaffected.
- Handlers.ErrorText: renders `KeyError` keys as the name in single quotes. That is Python's repr only for names without quotes, backslashes or unprintable characters, which holds for every key the handlers look up.
- Handlers.UpdateMalformed: states only the "Error processing post data: " prefix; the exact texts are stated by `UpdateMissingPosts` and `UpdateMissingField`.
- Handlers.EditStoredIncomplete: names a missing field the merge needs, not which of several missing fields is reported; the merge looks them up in the order title, html, status, updated_at, and `EditMissingField` pins down the title case.
- Handlers.ListUnexpected: covers post lists whose elements are all objects; a list element that is not an object makes `post["id"]` raise `TypeError`, which `ListRaised` states.

=== FILE: auth.dfy ===
/**
 The token signer's pure part: splitting the configured Admin API key
 `ID:SECRET` and building the header and claim set of the short-lived token.
 The signature itself (hex decoding of the secret and HMAC-SHA256 signing) is
 an oracle supplied by the caller; see `Dispatch.Env`.
 */
module Auth {
  import opened Wrappers
  import opened Text

  /** The API version the server talks to; it appears in the URL, the token
      audience and the `Accept-Version` header. */
  const ApiVersion: string := "v4"

  /** Seconds between the token's issue time and its expiry. */
  const TokenLifetime: int := 300

  const InvalidKeyMessage: string := "Invalid API key format. Expected 'ID:SECRET'"

  /** The JOSE header of the token. */
  datatype JoseHeader = JoseHeader(alg: string, typ: string, kid: string)

  /** The claim set of the token. */
  datatype Claims = Claims(iat: int, exp: int, aud: string)

  /** `key.split(':')` unpacked into exactly two parts, or `None` when the key
      does not have exactly two parts. Empty parts are accepted. */
  function KeyParts(key: string): (r: Option<(string, string)>)
    ensures r.Some? <==> Count(key, ':') == 1
    ensures r.Some? ==> key == r.value.0 + ":" + r.value.1
    ensures r.Some? ==> ':' !in r.value.0 && ':' !in r.value.1
  {
    var parts := Split(key, ':');
    SplitCount(key, ':');
    SplitJoin(key, ':');
    SplitPiecesFree(key, ':');
    if |parts| != 2 then None
    else
      assert Join(parts, ':') == parts[0] + [':'] + parts[1];
      Some((parts[0], parts[1]))
  }

  /** Every colon-free identifier and secret joined by one colon is read back
      as that identifier and secret, so `KeyParts` is a bijection between
      well-formed keys and pairs of colon-free strings. */
  lemma KeyPartsOfJoined(id: string, secret: string)
    requires ':' !in id && ':' !in secret
    ensures KeyParts(id + ":" + secret) == Some((id, secret))
  {
    SplitAround(id, secret, ':');
    SplitFree(id, ':');
    SplitFree(secret, ':');
    assert id + ":" + secret == id + [':'] + secret;
  }

  /** The header the server signs with: HS256, type JWT, key id = the ID part. */
  function TokenHeader(id: string): (h: JoseHeader)
    ensures h.kid == id
  {
    JoseHeader("HS256", "JWT", id)
  }

  /** The claims the server signs: issued at `iat`, expiring five minutes
      later, for the admin audience of the API version. */
  function TokenClaims(iat: int): (c: Claims)
    ensures c.iat == iat && c.exp - c.iat == TokenLifetime
  {
    Claims(iat, iat + TokenLifetime, "/" + ApiVersion + "/admin/")
  }
}

=== FILE: dispatch.dfy ===
/**
 The request dispatcher `make_ghost_request`: it turns an endpoint, an HTTP
 method and an optional JSON body into at most one authenticated request to
 the Ghost Admin API, and folds every outcome into one dictionary shape.
 The clock, the signer and the network are parameters.
 */
module Dispatch {
  import opened Wrappers
  import opened Text
  import opened JsonModel
  import opened Auth

  datatype Verb = GET | POST | PUT

  function VerbName(v: Verb): string
  {
    match v
    case GET => "GET"
    case POST => "POST"
    case PUT => "PUT"
  }

  /** One HTTP request as handed to the network. */
  datatype Request = Request(verb: Verb, url: string, headers: seq<(string, string)>, body: Option<Json>)

  /** What the signer (hex decoding of the secret plus HS256 signing) returns. */
  datatype SignOutcome = Signed(token: string) | SignFailed(description: string)

  /** What one round trip produced. `StatusError` is a non-2xx answer: the
      exception's text, the status code, the URL and headers of the request as
      the HTTP client reports them, and the unmodified response text. The
      headers are listed as `dict()` iterates the client's header collection:
      lower-case names, one entry per name, repeated values already joined
      with ", ". `Failed` is any other exception (transport failure, timeout,
      a body that is not JSON) with its text. */
  datatype HttpOutcome =
    | Answered(body: Json)
    | StatusError(description: string, code: int, url: string, headers: seq<(string, string)>, text: string)
    | Failed(description: string)

  /** The process configuration and the outside world: the base URL, the Admin
      API key, the signer and the network. */
  datatype Env = Env(
    baseUrl: string,
    apiKey: string,
    sign: (JoseHeader, Claims, string) -> SignOutcome,
    net: Request -> HttpOutcome)

  /** The dictionary `make_ghost_request` returns, and the request it sent, if any. */
  datatype Exchange = Exchange(result: Json, sent: Option<Request>)

  /** `{"error": message}` */
  function ErrorObject(message: string): Json
  {
    JObj([("error", JStr(message))])
  }

  function AdminUrl(baseUrl: string, endpoint: string): string
  {
    baseUrl + "/ghost/api/" + ApiVersion + "/admin/" + endpoint
  }

  function AuthHeaders(token: string): seq<(string, string)>
  {
    [("Authorization", "Ghost " + token),
     ("Content-Type", "application/json"),
     ("Accept-Version", ApiVersion)]
  }

  /** `method.upper()` compared with GET, POST and PUT in that order. */
  function SelectVerb(httpMethod: string): (r: Option<Verb>)
    ensures r.Some? <==> Upper(httpMethod) in {"GET", "POST", "PUT"}
    ensures r.Some? ==> Upper(httpMethod) == VerbName(r.value)
  {
    var u := Upper(httpMethod);
    if u == "GET" then Some(GET)
    else if u == "POST" then Some(POST)
    else if u == "PUT" then Some(PUT)
    else None
  }

  /** A method spelled with the letters of a verb in any mix of ASCII cases
      selects that verb, and an ASCII method that selects a verb is such a
      spelling. */
  lemma SelectVerbCaseless(httpMethod: string, v: Verb)
    requires IsAscii(httpMethod)
    ensures SelectVerb(httpMethod) == Some(v) <==>
              |httpMethod| == |VerbName(v)| &&
              forall i :: 0 <= i < |httpMethod| ==> AsciiUpper(httpMethod[i]) == VerbName(v)[i]
  {
    UpperAscii(httpMethod);
    var u := Upper(httpMethod);
    var w := VerbName(v);
    if |httpMethod| == |w| && forall i :: 0 <= i < |httpMethod| ==> AsciiUpper(httpMethod[i]) == w[i] {
      assert u == w;
    }
  }

  /** The verbs spelled as the handlers spell them select themselves. */
  lemma VerbLiterals()
    ensures SelectVerb("GET") == Some(GET)
    ensures SelectVerb("POST") == Some(POST)
    ensures SelectVerb("PUT") == Some(PUT)
  {
    assert Upper("GET") == "GET";
    assert Upper("POST") == "POST";
    assert Upper("PUT") == "PUT";
  }

  /** Python's upper-casing maps the long s to S, so "poſt" is accepted as POST. */
  lemma LongSSelectsPost()
    ensures SelectVerb("po\U{17F}t") == Some(POST)
  {
    assert Upper("po\U{17F}t") == "POST";
  }

  /** The reported header list as a JSON dictionary: one member per reported
      entry, in the order reported, each value a JSON string. */
  function HeadersJson(headers: seq<(string, string)>): (m: seq<(string, Json)>)
    ensures |m| == |headers|
    ensures forall i :: 0 <= i < |headers| ==> m[i] == (headers[i].0, JStr(headers[i].1))
  {
    if |headers| == 0 then []
    else [(headers[0].0, JStr(headers[0].1))] + HeadersJson(headers[1..])
  }

  /** The dictionary an outcome is folded into. */
  function Normalise(outcome: HttpOutcome): (r: Json)
    ensures outcome.Answered? ==> r == outcome.body
    ensures !outcome.Answered? ==> r.JObj? && Lookup(r.members, "error") == Some(JStr(outcome.description))
  {
    match outcome
    case Answered(body) => body
    case StatusError(d, code, url, headers, text) =>
      var m := [("error", JStr(d)),
                ("status_code", JInt(code)),
                ("url", JStr(url)),
                ("headers", JObj(HeadersJson(headers))),
                ("response_text", JStr(text))];
      assert forall j, k :: 0 <= j < k < |m| ==> m[j].0 != m[k].0;
      LookupDistinct(m, 0);
      JObj(m)
    case Failed(d) => ErrorObject(d)
  }

  /** `make_ghost_request(endpoint, method, data)` with the clock reading `iat`.
      Checks run in the order the server evaluates them: key format, signing,
      method; a request is sent only when all three pass, and then exactly
      once. */
  function MakeRequest(env: Env, endpoint: string, httpMethod: string, data: Option<Json>, iat: int): (x: Exchange)
    ensures Count(env.apiKey, ':') != 1 ==> x == Exchange(ErrorObject(InvalidKeyMessage), None)
    ensures x.sent.None? ==> HasKey(x.result, "error")
    ensures x.sent.Some? ==>
              && Count(env.apiKey, ':') == 1
              && Upper(httpMethod) == VerbName(x.sent.value.verb)
              && SelectVerb(httpMethod) == Some(x.sent.value.verb)
              && x.sent.value.url == env.baseUrl + "/ghost/api/v4/admin/" + endpoint
              && x.sent.value.body == (if x.sent.value.verb == GET then None else data)
              && x.result == Normalise(env.net(x.sent.value))
  {
    var url := AdminUrl(env.baseUrl, endpoint);
    match KeyParts(env.apiKey)
    case None => Exchange(ErrorObject(InvalidKeyMessage), None)
    case Some((id, secret)) =>
      match env.sign(TokenHeader(id), TokenClaims(iat), secret)
      case SignFailed(d) => Exchange(ErrorObject("Failed to generate JWT token: " + d), None)
      case Signed(token) =>
        match SelectVerb(httpMethod)
        case None => Exchange(ErrorObject("Unsupported method: " + httpMethod), None)
        case Some(verb) =>
          var request := Request(verb, url, AuthHeaders(token), if verb == GET then None else data);
          Exchange(Normalise(env.net(request)), Some(request))
  }

  /** The constants spelled out as they go on the wire. */
  lemma WireConstants(id: string, iat: int, token: string, baseUrl: string, endpoint: string)
    ensures TokenHeader(id) == JoseHeader("HS256", "JWT", id)
    ensures TokenClaims(iat) == Claims(iat, iat + 300, "/v4/admin/")
    ensures AdminUrl(baseUrl, endpoint) == baseUrl + "/ghost/api/v4/admin/" + endpoint
    ensures AuthHeaders(token) ==
              [("Authorization", "Ghost " + token), ("Content-Type", "application/json"), ("Accept-Version", "v4")]
  {
    assert "/" + ApiVersion + "/admin/" == "/v4/admin/";
  }

  /** The signer is asked for a token over header {alg HS256, typ JWT, kid ID}
      and claims {iat, exp = iat + 300, aud "/v4/admin/"} with the SECRET part;
      when it fails the error names the failure and nothing is sent. */
  lemma SigningInputs(env: Env, id: string, secret: string, endpoint: string, httpMethod: string, data: Option<Json>, iat: int)
    requires env.apiKey == id + ":" + secret && ':' !in id && ':' !in secret
    requires env.sign(JoseHeader("HS256", "JWT", id), Claims(iat, iat + 300, "/v4/admin/"), secret).SignFailed?
    ensures MakeRequest(env, endpoint, httpMethod, data, iat) ==
              Exchange(ErrorObject("Failed to generate JWT token: " +
                         env.sign(JoseHeader("HS256", "JWT", id), Claims(iat, iat + 300, "/v4/admin/"), secret).description),
                       None)
  {
    KeyPartsOfJoined(id, secret);
    WireConstants(id, iat, "", env.baseUrl, endpoint);
  }

  /** With a well-formed key and a working signer, an unsupported method is
      reported with the caller's spelling and nothing is sent. */
  lemma UnsupportedMethod(env: Env, id: string, secret: string, endpoint: string, httpMethod: string, data: Option<Json>, iat: int)
    requires env.apiKey == id + ":" + secret && ':' !in id && ':' !in secret
    requires env.sign(JoseHeader("HS256", "JWT", id), Claims(iat, iat + 300, "/v4/admin/"), secret).Signed?
    requires Upper(httpMethod) != "GET" && Upper(httpMethod) != "POST" && Upper(httpMethod) != "PUT"
    ensures MakeRequest(env, endpoint, httpMethod, data, iat) ==
              Exchange(JObj([("error", JStr("Unsupported method: " + httpMethod))]), None)
  {
    KeyPartsOfJoined(id, secret);
    WireConstants(id, iat, "", env.baseUrl, endpoint);
  }

  /** With a well-formed key, a working signer and a supported method, exactly
      one request goes out: to the admin URL, with the token as
      `Authorization: Ghost <token>`, JSON content type and API version v4,
      and a body only for POST and PUT. */
  lemma SentRequest(env: Env, id: string, secret: string, endpoint: string, httpMethod: string, data: Option<Json>, iat: int, v: Verb)
    requires env.apiKey == id + ":" + secret && ':' !in id && ':' !in secret
    requires env.sign(JoseHeader("HS256", "JWT", id), Claims(iat, iat + 300, "/v4/admin/"), secret).Signed?
    requires Upper(httpMethod) == VerbName(v)
    ensures MakeRequest(env, endpoint, httpMethod, data, iat).sent ==
              Some(Request(v, env.baseUrl + "/ghost/api/v4/admin/" + endpoint,
                           [("Authorization", "Ghost " +
                               env.sign(JoseHeader("HS256", "JWT", id), Claims(iat, iat + 300, "/v4/admin/"), secret).token),
                            ("Content-Type", "application/json"),
                            ("Accept-Version", "v4")],
                           if v == GET then None else data))
  {
    KeyPartsOfJoined(id, secret);
    WireConstants(id, iat, "", env.baseUrl, endpoint);
  }

  /** The outcome of the one request is folded without retry: a parsed body
      is returned as it is, a status failure keeps code, URL, headers and
      response text unmodified, and any other failure keeps only its text. */
  lemma OutcomeFolding(env: Env, endpoint: string, httpMethod: string, data: Option<Json>, iat: int)
    ensures var x := MakeRequest(env, endpoint, httpMethod, data, iat);
            x.sent.Some? ==>
              match env.net(x.sent.value)
              case Answered(body) => x.result == body
              case StatusError(d, code, url, headers, text) =>
                && x.result.JObj?
                && |x.result.members| == 5
                && Lookup(x.result.members, "error") == Some(JStr(d))
                && Lookup(x.result.members, "status_code") == Some(JInt(code))
                && Lookup(x.result.members, "url") == Some(JStr(url))
                && Lookup(x.result.members, "response_text") == Some(JStr(text))
                && Lookup(x.result.members, "headers") == Some(JObj(HeadersJson(headers)))
              case Failed(d) => x.result == JObj([("error", JStr(d))])
  {
    var x := MakeRequest(env, endpoint, httpMethod, data, iat);
    if x.sent.Some? && env.net(x.sent.value).StatusError? {
      var m := x.result.members;
      assert forall j, k :: 0 <= j < k < |m| ==> m[j].0 != m[k].0;
      LookupDistinct(m, 0);
      LookupDistinct(m, 1);
      LookupDistinct(m, 2);
      LookupDistinct(m, 3);
      LookupDistinct(m, 4);
    }
  }

  /** Every outcome that is not a parsed body carries an "error" key, so the
      handlers' `"error" in response` test sees every dispatcher failure. */
  lemma FailuresCarryError(env: Env, endpoint: string, httpMethod: string, data: Option<Json>, iat: int)
    ensures var x := MakeRequest(env, endpoint, httpMethod, data, iat);
            x.sent.None? || !env.net(x.sent.value).Answered? ==> HasKey(x.result, "error")
  {
    var x := MakeRequest(env, endpoint, httpMethod, data, iat);
    if x.sent.Some? && env.net(x.sent.value).StatusError? {
      LookupDistinct(x.result.members, 0);
    }
  }
}

=== FILE: handlers.dfy ===
/**
 The three post tools `create_post`, `list_posts` and `edit_post`: how each
 builds its endpoint and payload, calls the dispatcher, and turns the
 dispatcher's dictionary into the text it returns.
 */
module Handlers {
  import opened Wrappers
  import opened Text
  import opened JsonModel
  import opened Auth
  import opened Dispatch

  /** What a tool returns. The text of `WithValue` is the prefix followed by
      Python's `str()` of the value (the value itself when it is a string);
      that of `WithDump` is the prefix followed by `json.dumps` of the value;
      `Dump` is `json.dumps(value, indent=2)`; `Plain` is a fixed text.
      `Raised` is an exception the tool does not catch and leaves to the tool
      host. */
  datatype Reply =
    | Plain(text: string)
    | WithValue(prefix: string, value: Json)
    | WithDump(prefix: string, value: Json)
    | Dump(value: Json)
    | Raised(error: PyError)

  /** A tool's reply and the requests it sent, in order. */
  datatype Run = Run(reply: Reply, sent: seq<Request>)

  const CreatedFields: seq<string> := ["id", "title", "url", "status", "created_at"]
  const SummaryFields: seq<string> := ["id", "title", "status", "created_at", "updated_at"]
  const UpdatedFields: seq<string> := ["id", "title", "url", "status", "updated_at"]

  const NoPostsMessage: string := "No posts found matching the criteria."
  const ListPrefix: string := "posts/?source=html&limit="
  const FilterPrefix: string := "&filter=status:"

  function SentList(sent: Option<Request>): (s: seq<Request>)
    ensures |s| <= 1
    ensures forall r :: r in s <==> sent == Some(r)
  {
    if sent.Some? then [sent.value] else []
  }

  // ---------------------------------------------------------------------------
  // Payloads

  /** One `{"name": tag}` object per tag, in order. */
  function TagObjects(tags: seq<string>): (objs: seq<Json>)
    ensures |objs| == |tags|
  {
    if |tags| == 0 then [] else [JObj([("name", JStr(tags[0]))])] + TagObjects(tags[1..])
  }

  /** Reads tag names back from a list of `{"name": tag}` objects. */
  function TagNames(objs: seq<Json>): Option<seq<string>>
  {
    if |objs| == 0 then Some([])
    else if objs[0].JObj? && |objs[0].members| == 1 && objs[0].members[0].0 == "name"
            && objs[0].members[0].1.JStr? then
      match TagNames(objs[1..])
      case None => None
      case Some(rest) => Some([objs[0].members[0].1.s] + rest)
    else None
  }

  /** The tag objects carry exactly the caller's tags, in input order. */
  lemma {:induction false} TagObjectsRoundTrip(tags: seq<string>)
    ensures TagNames(TagObjects(tags)) == Some(tags)
    ensures forall i :: 0 <= i < |tags| ==> TagObjects(tags)[i] == JObj([("name", JStr(tags[i]))])
  {
    if |tags| > 0 {
      TagObjectsRoundTrip(tags[1..]);
      assert TagObjects(tags)[1..] == TagObjects(tags[1..]);
      assert tags == [tags[0]] + tags[1..];
    }
  }

  /** The `tags` member, present only for a non-empty list (`if tags:`). */
  function TagsMember(tags: Option<seq<string>>): seq<(string, Json)>
  {
    if tags.Some? && |tags.value| > 0 then [("tags", JArr(TagObjects(tags.value)))] else []
  }

  /** `{"posts": [post]}`, the envelope of every payload sent. */
  function Wrap(post: seq<(string, Json)>): Json
  {
    JObj([("posts", JArr([JObj(post)]))])
  }

  /** The single post of a payload built as `{"posts": [post]}`. */
  function OnlyPost(payload: Json): Option<seq<(string, Json)>>
  {
    if payload.JObj? && |payload.members| == 1 && payload.members[0].0 == "posts"
       && payload.members[0].1.JArr? && |payload.members[0].1.items| == 1
       && payload.members[0].1.items[0].JObj?
    then Some(payload.members[0].1.items[0].members)
    else None
  }

  /** The post `create_post` sends. */
  function NewPostMembers(title: string, content: string, status: string, tags: Option<seq<string>>): seq<(string, Json)>
  {
    [("title", JStr(title)), ("html", JStr(content)), ("status", JStr(status))] + TagsMember(tags)
  }

  /** The body `create_post` sends. */
  function CreatePayload(title: string, content: string, status: string, tags: Option<seq<string>>): Json
  {
    Wrap(NewPostMembers(title, content, status, tags))
  }

  /** `create_post` sends exactly one post holding title, html = content and
      status; `tags` is present if and only if the tag list is non-empty, and
      then lists one `{"name"}` object per tag in input order. */
  lemma CreatePayloadShape(title: string, content: string, status: string, tags: Option<seq<string>>)
    ensures var post := OnlyPost(CreatePayload(title, content, status, tags));
            && post.Some?
            && |post.value| == 3 + (if tags.Some? && |tags.value| > 0 then 1 else 0)
            && post.value[0].0 == "title" && post.value[1].0 == "html" && post.value[2].0 == "status"
            && (|post.value| == 4 ==> post.value[3].0 == "tags")
            && Lookup(post.value, "title") == Some(JStr(title))
            && Lookup(post.value, "html") == Some(JStr(content))
            && Lookup(post.value, "status") == Some(JStr(status))
            && (Lookup(post.value, "tags").Some? <==> tags.Some? && |tags.value| > 0)
            && (Lookup(post.value, "tags").Some? ==>
                  Lookup(post.value, "tags").value.JArr? &&
                  TagNames(Lookup(post.value, "tags").value.items) == Some(tags.value))
  {
    var m := NewPostMembers(title, content, status, tags);
    assert OnlyPost(CreatePayload(title, content, status, tags)) == Some(m);
    assert forall j, k :: 0 <= j < k < |m| ==> m[j].0 != m[k].0;
    LookupDistinct(m, 0);
    LookupDistinct(m, 1);
    LookupDistinct(m, 2);
    if tags.Some? && |tags.value| > 0 {
      LookupDistinct(m, 3);
      TagObjectsRoundTrip(tags.value);
    } else {
      LookupAbsent(m, "tags");
    }
  }

  // ---------------------------------------------------------------------------
  // Reply routing shared by the handlers

  /** `f"{prefix}{response['error']}"` after `"error" in response` held. */
  function ErrorReply(prefix: string, response: Json): Reply
  {
    match Subscript(response, Name("error"))
    case Success(v) => WithValue(prefix, v)
    case Failure(e) => Raised(e)
  }

  /** `except (KeyError, IndexError)` in `create_post` and `list_posts`. */
  function Unexpected(e: PyError, response: Json): Reply
  {
    if e.TypeError? then Raised(e) else WithDump("Unexpected response format: ", response)
  }

  /** `response["posts"][0]` */
  function FirstPost(response: Json): Result<Json, PyError>
  {
    var posts :- Subscript(response, Name("posts"));
    Subscript(posts, Position(0))
  }

  /** `response["posts"][0]` on an object raises `KeyError('posts')` when the
      key is absent and the list `IndexError` when the post list is empty. */
  lemma FirstPostMissing(response: Json)
    requires response.JObj?
    ensures Lookup(response.members, "posts").None? ==> FirstPost(response) == Failure(KeyError(Name("posts")))
    ensures Lookup(response.members, "posts") == Some(JArr([])) ==> FirstPost(response) == Failure(IndexError(false))
  {
  }

  /** Python's `repr` of a key name without quotes, backslashes or
      unprintable characters: the name in single quotes. */
  function Quoted(name: string): string
  {
    "'" + name + "'"
  }

  /** `str(e)` for the exceptions `edit_post` catches. Keys are the fixed field
      names, whose `repr` is `Quoted`. */
  function ErrorText(e: PyError): string
    requires !e.TypeError?
  {
    match e
    case KeyError(Name(k)) => Quoted(k)
    case KeyError(Position(i)) => IntToString(i)
    case IndexError(inString) => if inString then "string index out of range" else "list index out of range"
  }

  /** `except (KeyError, IndexError) as e` in `edit_post`. */
  function ProcessingReply(e: PyError): Reply
  {
    if e.TypeError? then Raised(e) else Plain("Error processing post data: " + ErrorText(e))
  }

  /** The processing errors spelled out as `edit_post` returns them. */
  lemma PostsKeyText()
    ensures ProcessingReply(KeyError(Name("posts"))) == Plain("Error processing post data: 'posts'")
  {
  }

  lemma TitleKeyText()
    ensures ProcessingReply(KeyError(Name("title"))) == Plain("Error processing post data: 'title'")
  {
  }

  lemma EmptyListText()
    ensures ProcessingReply(IndexError(false)) == Plain("Error processing post data: " + "list index out of range")
  {
  }

  // ---------------------------------------------------------------------------
  // create_post

  /** The text `create_post` returns for the dispatcher's answer. */
  function CreateReply(response: Json): (reply: Reply)
    ensures reply.Raised? ==> reply.error == TypeError
    ensures reply.WithValue? ==> reply.prefix == "Error creating post: " && HasKey(response, "error")
    ensures reply.WithDump? ==> reply == WithDump("Unexpected response format: ", response)
    ensures reply.Dump? ==> !HasKey(response, "error") && reply.value.JObj? && |reply.value.members| == 5
    ensures !reply.Plain?
    ensures response.JObj? && !HasKey(response, "error") && FirstPost(response).Success? ==>
              (!FirstPost(response).value.JObj? ==> reply == Raised(TypeError))
  {
    match Contains(response, "error")
    case Failure(e) => Raised(e)
    case Success(true) => ErrorReply("Error creating post: ", response)
    case Success(false) =>
      match FirstPost(response)
      case Failure(e) => Unexpected(e, response)
      case Success(post) =>
        match Project(post, CreatedFields)
        case Failure(e) => Unexpected(e, response)
        case Success(created) => Dump(created)
  }

  /** `create_post(title, content, status, tags)` with the clock reading `iat`:
      at most one request, a POST of the payload to the posts endpoint. */
  function CreatePost(env: Env, title: string, content: string, status: string, tags: Option<seq<string>>, iat: int): (run: Run)
    ensures |run.sent| <= 1
    ensures forall r :: r in run.sent ==>
              r.verb == POST && r.url == env.baseUrl + "/ghost/api/v4/admin/" + "posts/?source=html" &&
              r.body == Some(CreatePayload(title, content, status, tags))
  {
    VerbLiterals();
    var x := MakeRequest(env, "posts/?source=html", "POST", Some(CreatePayload(title, content, status, tags)), iat);
    Run(CreateReply(x.result), SentList(x.sent))
  }

  /** With a well-formed key and a working signer, `create_post` sends its
      POST, and its reply is the routing of that request's outcome. */
  lemma CreatePostSends(env: Env, id: string, secret: string, title: string, content: string, status: string,
                        tags: Option<seq<string>>, iat: int)
    requires env.apiKey == id + ":" + secret && ':' !in id && ':' !in secret
    requires env.sign(JoseHeader("HS256", "JWT", id), Claims(iat, iat + 300, "/v4/admin/"), secret).Signed?
    ensures var run := CreatePost(env, title, content, status, tags, iat);
            && |run.sent| == 1
            && run.reply == CreateReply(Normalise(env.net(run.sent[0])))
  {
    VerbLiterals();
    SentRequest(env, id, secret, "posts/?source=html", "POST", Some(CreatePayload(title, content, status, tags)), iat, POST);
  }

  /** A well-formed success is reduced to id, title, url, status and
      created_at of the first post, in that order. */
  lemma CreateSuccess(response: Json, post: seq<(string, Json)>, more: seq<Json>)
    requires response.JObj? && !HasKey(response, "error")
    requires Lookup(response.members, "posts") == Some(JArr([JObj(post)] + more))
    requires forall f :: f in CreatedFields ==> Lookup(post, f).Some?
    ensures CreateReply(response) ==
              Dump(JObj([("id", Lookup(post, "id").value),
                         ("title", Lookup(post, "title").value),
                         ("url", Lookup(post, "url").value),
                         ("status", Lookup(post, "status").value),
                         ("created_at", Lookup(post, "created_at").value)]))
  {
    assert ([JObj(post)] + more)[0] == JObj(post);
    assert Contains(response, "error") == Success(false);
    assert FirstPost(response) == Success(JObj(post));
    ProjectObject(post, CreatedFields);
    var r := Project(JObj(post), CreatedFields).value;
    assert r.members == [r.members[0], r.members[1], r.members[2], r.members[3], r.members[4]];
  }

  /** An object success without "posts", with an empty post list, or whose
      first post lacks one of the five fields, is reported as "Unexpected
      response format: " followed by the whole response. */
  lemma CreateUnexpected(response: Json)
    requires response.JObj? && !HasKey(response, "error")
    requires var posts := Lookup(response.members, "posts");
             || posts.None?
             || posts == Some(JArr([]))
             || (posts.value.JArr? && |posts.value.items| > 0 && posts.value.items[0].JObj? &&
                 exists f :: f in CreatedFields && Lookup(posts.value.items[0].members, f).None?)
    ensures CreateReply(response) == WithDump("Unexpected response format: ", response)
  {
    var posts := Lookup(response.members, "posts");
    if posts.Some? && posts.value.JArr? && |posts.value.items| > 0 {
      ProjectObject(posts.value.items[0].members, CreatedFields);
    }
  }

  /** On an object answer without "error", `create_post` raises exactly when
      `response["posts"][0]` raises `TypeError` or yields something that is
      not a dict (whose `post["id"]` then raises it): `except (KeyError,
      IndexError)` does not catch a `TypeError`. */
  lemma CreateRaised(response: Json)
    requires response.JObj? && !HasKey(response, "error")
    ensures CreateReply(response).Raised? <==>
              || FirstPost(response) == Failure(TypeError)
              || (FirstPost(response).Success? && !FirstPost(response).value.JObj?)
  {
    var p := FirstPost(response);
    if p.Success? {
      if p.value.JObj? {
        ProjectObject(p.value.members, CreatedFields);
      } else {
        ProjectNonObject(p.value, CreatedFields);
      }
    }
  }

  /** The worked example: a draft titled "Hello" is reported with exactly its
      five fields. */
  lemma CreateExample()
    ensures CreateReply(JObj([("posts", JArr([JObj([
              ("id", JStr("1")), ("title", JStr("Hello")), ("url", JStr("/hello/")),
              ("status", JStr("draft")), ("created_at", JStr("2024-01-01T00:00:00.000Z"))])]))]))
            == Dump(JObj([("id", JStr("1")), ("title", JStr("Hello")), ("url", JStr("/hello/")),
                          ("status", JStr("draft")), ("created_at", JStr("2024-01-01T00:00:00.000Z"))]))
  {
    var post := [("id", JStr("1")), ("title", JStr("Hello")), ("url", JStr("/hello/")),
                 ("status", JStr("draft")), ("created_at", JStr("2024-01-01T00:00:00.000Z"))];
    var response := JObj([("posts", JArr([JObj(post)]))]);
    LookupDistinct(response.members, 0);
    LookupAbsent(response.members, "error");
    assert [JObj(post)] == [JObj(post)] + [];
    assert forall j, k :: 0 <= j < k < |post| ==> post[j].0 != post[k].0;
    LookupDistinct(post, 0);
    LookupDistinct(post, 1);
    LookupDistinct(post, 2);
    LookupDistinct(post, 3);
    LookupDistinct(post, 4);
    CreateSuccess(response, post, []);
  }

  // ---------------------------------------------------------------------------
  // list_posts

  /** The endpoint `list_posts` queries. */
  function ListEndpoint(limit: int, status: string): string
  {
    ListPrefix + IntToString(limit) + (if status != "all" then FilterPrefix + status else "")
  }

  /** Reads limit and status filter back from a list endpoint; no filter reads
      as status "all". */
  function ParseListEndpoint(endpoint: string): Option<(int, string)>
  {
    if !StartsWith(endpoint, ListPrefix) then None
    else
      var rest := endpoint[|ListPrefix|..];
      var k := FirstIndex(rest, '&');
      var limit :- ParseInt(rest[..k]);
      if k == |rest| then Some((limit, "all"))
      else if StartsWith(rest[k..], FilterPrefix) then Some((limit, rest[k + |FilterPrefix|..]))
      else None
  }

  lemma {:induction false} FirstIndexAt(a: string, b: string, c: char)
    requires c !in a
    requires |b| == 0 || b[0] == c
    ensures FirstIndex(a + b, c) == |a|
  {
    if |a| > 0 {
      assert (a + b)[1..] == a[1..] + b;
      FirstIndexAt(a[1..], b, c);
    }
  }

  /** The endpoint determines limit and status: reading it back returns the
      arguments it was built from, so the filter is present exactly when status
      is not "all" and carries status verbatim. */
  lemma ListEndpointRoundTrip(limit: int, status: string)
    ensures ParseListEndpoint(ListEndpoint(limit, status)) == Some((limit, status))
    ensures ListEndpoint(limit, status) == ListPrefix + IntToString(limit) <==> status == "all"
  {
    var digits := IntToString(limit);
    var tail := if status != "all" then FilterPrefix + status else "";
    var e := ListEndpoint(limit, status);
    assert e == ListPrefix + (digits + tail);
    assert e[|ListPrefix|..] == digits + tail;
    FirstIndexAt(digits, tail, '&');
    assert (digits + tail)[..|digits|] == digits;
    assert (digits + tail)[|digits|..] == tail;
    IntToStringRoundTrip(limit);
    if status != "all" {
      assert tail[|FilterPrefix|..] == status;
      assert |e| > |ListPrefix + digits|;
    }
  }

  /** The text `list_posts` returns for the dispatcher's answer. */
  function ListReply(response: Json): (reply: Reply)
    ensures reply.Raised? ==> reply.error == TypeError
    ensures reply.WithValue? ==> reply.prefix == "Error listing posts: " && HasKey(response, "error")
    ensures reply.WithDump? ==> reply == WithDump("Unexpected response format: ", response)
    ensures reply.Plain? ==> reply.text == NoPostsMessage
    ensures reply.Plain? <==>
              response.JObj? && !HasKey(response, "error") &&
              Lookup(response.members, "posts").Some? && !Truthy(Lookup(response.members, "posts").value)
    ensures reply.Dump? ==>
              && response.JObj? && !HasKey(response, "error")
              && Lookup(response.members, "posts").Some? && Lookup(response.members, "posts").value.JArr?
              && reply.value.JArr?
              && |reply.value.items| == |Lookup(response.members, "posts").value.items| > 0
  {
    match Contains(response, "error")
    case Failure(e) => Raised(e)
    case Success(true) => ErrorReply("Error listing posts: ", response)
    case Success(false) =>
      match Subscript(response, Name("posts"))
      case Failure(e) => Unexpected(e, response)
      case Success(posts) =>
        if !Truthy(posts) then Plain(NoPostsMessage)
        // iterating a dict or a string yields strings and iterating a number
        // fails; either way the first `post["id"]` raises TypeError
        else if !posts.JArr? then Raised(TypeError)
        else
          match ProjectEach(posts.items, SummaryFields)
          case Failure(e) => Unexpected(e, response)
          case Success(summaries) => Dump(JArr(summaries))
  }

  /** `list_posts(limit, status)` with the clock reading `iat`: at most one
      request, a GET of the list endpoint without a body. */
  function ListPosts(env: Env, limit: int, status: string, iat: int): (run: Run)
    ensures |run.sent| <= 1
    ensures forall r :: r in run.sent ==>
              r.verb == GET && r.body.None? &&
              r.url == env.baseUrl + "/ghost/api/v4/admin/" + ListEndpoint(limit, status)
  {
    VerbLiterals();
    var x := MakeRequest(env, ListEndpoint(limit, status), "GET", None, iat);
    Run(ListReply(x.result), SentList(x.sent))
  }

  /** With a well-formed key and a working signer, `list_posts` sends its GET,
      and its reply is the routing of that request's outcome. */
  lemma ListPostsSends(env: Env, id: string, secret: string, limit: int, status: string, iat: int)
    requires env.apiKey == id + ":" + secret && ':' !in id && ':' !in secret
    requires env.sign(JoseHeader("HS256", "JWT", id), Claims(iat, iat + 300, "/v4/admin/"), secret).Signed?
    ensures var run := ListPosts(env, limit, status, iat);
            && |run.sent| == 1
            && run.reply == ListReply(Normalise(env.net(run.sent[0])))
  {
    VerbLiterals();
    SentRequest(env, id, secret, ListEndpoint(limit, status), "GET", None, iat, GET);
  }

  /** Whatever limit and status were asked for, an answer whose "posts" value
      is falsy (an empty list, but also null, false, 0, "" or an empty dict)
      gives exactly "No posts found matching the criteria.". */
  lemma ListEmpty(env: Env, limit: int, status: string, iat: int, members: seq<(string, Json)>)
    requires var x := MakeRequest(env, ListEndpoint(limit, status), "GET", None, iat);
             x.result == JObj(members)
    requires Lookup(members, "error").None? && Lookup(members, "posts").Some?
    requires !Truthy(Lookup(members, "posts").value)
    ensures ListPosts(env, limit, status, iat).reply == Plain("No posts found matching the criteria.")
  {
  }

  /** An object answer without "posts", or whose posts are objects at least
      one of which lacks a summary field, is reported as "Unexpected response
      format: " followed by the whole response. */
  lemma ListUnexpected(response: Json)
    requires response.JObj? && !HasKey(response, "error")
    requires var posts := Lookup(response.members, "posts");
             || posts.None?
             || (posts.value.JArr? &&
                 (forall i :: 0 <= i < |posts.value.items| ==> posts.value.items[i].JObj?) &&
                 exists i, f :: 0 <= i < |posts.value.items| && f in SummaryFields &&
                   Lookup(posts.value.items[i].members, f).None?)
    ensures ListReply(response) == WithDump("Unexpected response format: ", response)
  {
    var posts := Lookup(response.members, "posts");
    assert Contains(response, "error") == Success(false);
    if posts.Some? {
      var items := posts.value.items;
      var i, f :| 0 <= i < |items| && f in SummaryFields && Lookup(items[i].members, f).None?;
      ProjectEachObjects(items, SummaryFields);
      assert Truthy(posts.value);
    }
  }

  /** Inside the `try` of `list_posts`, a truthy "posts" value that is not a
      list, or a post that is not a dict after well-formed ones, makes
      `post["id"]` (or the iteration itself) raise `TypeError`, which
      `except (KeyError, IndexError)` does not catch. */
  lemma ListRaised(response: Json, i: nat)
    requires response.JObj? && !HasKey(response, "error") && Lookup(response.members, "posts").Some?
    ensures var posts := Lookup(response.members, "posts").value;
            Truthy(posts) && !posts.JArr? ==> ListReply(response) == Raised(TypeError)
    ensures var posts := Lookup(response.members, "posts").value;
            && posts.JArr? && i < |posts.items| && !posts.items[i].JObj?
            && (forall j :: 0 <= j < i ==>
                  posts.items[j].JObj? && forall f :: f in SummaryFields ==> Lookup(posts.items[j].members, f).Some?)
            ==> ListReply(response) == Raised(TypeError)
  {
    var posts := Lookup(response.members, "posts").value;
    assert Contains(response, "error") == Success(false);
    assert Subscript(response, Name("posts")) == Success(posts);
    if posts.JArr? && i < |posts.items| && !posts.items[i].JObj? &&
       (forall j :: 0 <= j < i ==>
          posts.items[j].JObj? && forall f :: f in SummaryFields ==> Lookup(posts.items[j].members, f).Some?) {
      ProjectEachNonObject(posts.items, SummaryFields, i);
      assert Truthy(posts);
      assert ListReply(response) == Unexpected(TypeError, response);
    }
  }

  /** The summary `list_posts` gives of one stored post. */
  function Summary(post: seq<(string, Json)>): Json
    requires forall f :: f in SummaryFields ==> Lookup(post, f).Some?
  {
    JObj([("id", Lookup(post, "id").value),
          ("title", Lookup(post, "title").value),
          ("status", Lookup(post, "status").value),
          ("created_at", Lookup(post, "created_at").value),
          ("updated_at", Lookup(post, "updated_at").value)])
  }

  lemma SummaryOfPost(post: seq<(string, Json)>)
    requires forall f :: f in SummaryFields ==> Lookup(post, f).Some?
    ensures Project(JObj(post), SummaryFields) == Success(Summary(post))
  {
    ProjectObject(post, SummaryFields);
    var ms := Project(JObj(post), SummaryFields).value.members;
    assert ms == [ms[0], ms[1], ms[2], ms[3], ms[4]];
  }

  /** A list of well-formed posts becomes one summary per post, in response
      order, each holding id, title, status, created_at and updated_at. */
  lemma ListSummaries(response: Json, posts: seq<Json>)
    requires response.JObj? && !HasKey(response, "error")
    requires Lookup(response.members, "posts") == Some(JArr(posts)) && |posts| > 0
    requires forall i :: 0 <= i < |posts| ==>
               posts[i].JObj? && forall f :: f in SummaryFields ==> Lookup(posts[i].members, f).Some?
    ensures ListReply(response).Dump? && ListReply(response).value.JArr?
    ensures var summaries := ListReply(response).value.items;
            |summaries| == |posts| &&
            forall i :: 0 <= i < |posts| ==> summaries[i] == Summary(posts[i].members)
  {
    forall i | 0 <= i < |posts|
      ensures Project(posts[i], SummaryFields) == Success(Summary(posts[i].members))
    {
      SummaryOfPost(posts[i].members);
    }
    var r := ProjectEach(posts, SummaryFields);
    assert r.Success?;
  }

  // ---------------------------------------------------------------------------
  // edit_post

  function PostEndpoint(postId: string): string
  {
    "posts/" + postId + "/?source=html"
  }

  /** `arg if arg is not None else post[field]` */
  function Fallback(arg: Option<string>, post: Json, field: string): Result<Json, PyError>
  {
    if arg.Some? then Success(JStr(arg.value)) else Subscript(post, Name(field))
  }

  /** The post `edit_post` sends. */
  function EditedMembers(postId: string, title: Json, html: Json, status: Json, updatedAt: Json,
                         tags: Option<seq<string>>): seq<(string, Json)>
  {
    [("id", JStr(postId)), ("title", title), ("html", html), ("status", status), ("updated_at", updatedAt)]
      + TagsMember(tags)
  }

  /** Reading the edited post back gives each field that was put in, and the
      `tags` key exactly for a non-empty tag list. */
  lemma EditedMembersShape(postId: string, title: Json, html: Json, status: Json, updatedAt: Json,
                           tags: Option<seq<string>>)
    ensures var m := EditedMembers(postId, title, html, status, updatedAt, tags);
            && |m| == 5 + (if tags.Some? && |tags.value| > 0 then 1 else 0)
            && m[0].0 == "id" && m[1].0 == "title" && m[2].0 == "html" && m[3].0 == "status"
            && m[4].0 == "updated_at"
            && (|m| == 6 ==> m[5].0 == "tags" && m[5].1.JArr? && TagNames(m[5].1.items) == Some(tags.value))
            && Lookup(m, "id") == Some(JStr(postId))
            && Lookup(m, "title") == Some(title)
            && Lookup(m, "html") == Some(html)
            && Lookup(m, "status") == Some(status)
            && Lookup(m, "updated_at") == Some(updatedAt)
            && (Lookup(m, "tags").Some? <==> tags.Some? && |tags.value| > 0)
            && (Lookup(m, "tags").Some? ==>
                  Lookup(m, "tags").value.JArr? && TagNames(Lookup(m, "tags").value.items) == Some(tags.value))
  {
    var m := EditedMembers(postId, title, html, status, updatedAt, tags);
    assert forall j, k :: 0 <= j < k < |m| ==> m[j].0 != m[k].0;
    LookupDistinct(m, 0);
    LookupDistinct(m, 1);
    LookupDistinct(m, 2);
    LookupDistinct(m, 3);
    LookupDistinct(m, 4);
    if tags.Some? && |tags.value| > 0 {
      LookupDistinct(m, 5);
      TagObjectsRoundTrip(tags.value);
    } else {
      LookupAbsent(m, "tags");
    }
  }

  /** The body `edit_post` sends, built from the fetched dictionary; the
      lookups run in the order the server evaluates them and the first one that raises ends it. */
  function EditPayload(postId: string, title: Option<string>, content: Option<string>, status: Option<string>,
                       tags: Option<seq<string>>, current: Json): (r: Result<Json, PyError>)
    ensures r.Success? ==>
              && FirstPost(current).Success? && FirstPost(current).value.JObj?
              && Subscript(FirstPost(current).value, Name("updated_at")).Success?
              && OnlyPost(r.value).Some? && |OnlyPost(r.value).value| >= 5
              && OnlyPost(r.value).value[0] == ("id", JStr(postId))
              && OnlyPost(r.value).value[4] ==
                   ("updated_at", Subscript(FirstPost(current).value, Name("updated_at")).value)
    ensures r.Failure? && FirstPost(current).Success? && FirstPost(current).value.JObj? ==> r.error.KeyError?
    ensures FirstPost(current).Failure? ==> r == Failure(FirstPost(current).error)
    ensures FirstPost(current).Success? && !FirstPost(current).value.JObj? ==> r == Failure(TypeError)
  {
    var post :- FirstPost(current);
    var t :- Fallback(title, post, "title");
    var h :- Fallback(content, post, "html");
    var s :- Fallback(status, post, "status");
    var u :- Subscript(post, Name("updated_at"));
    Success(Wrap(EditedMembers(postId, t, h, s, u, tags)))
  }

  /** The stored value of a field unless the caller supplied one. */
  function Merged(arg: Option<string>, stored: seq<(string, Json)>, field: string): Json
    requires arg.Some? || Lookup(stored, field).Some?
  {
    if arg.Some? then JStr(arg.value) else Lookup(stored, field).value
  }

  /** Merge of the caller's arguments with the fetched post: it fails exactly
      when a field it needs is missing; otherwise each of title, html and
      status is the argument when given and the stored value otherwise, id is
      the caller's post id, updated_at is always the stored value, and tags are
      present only for a non-empty list. */
  lemma EditMerge(postId: string, title: Option<string>, content: Option<string>, status: Option<string>,
                  tags: Option<seq<string>>, current: Json, stored: seq<(string, Json)>, more: seq<Json>)
    requires current.JObj? && Lookup(current.members, "posts") == Some(JArr([JObj(stored)] + more))
    ensures EditPayload(postId, title, content, status, tags, current).Success? <==>
              && (title.None? ==> Lookup(stored, "title").Some?)
              && (content.None? ==> Lookup(stored, "html").Some?)
              && (status.None? ==> Lookup(stored, "status").Some?)
              && Lookup(stored, "updated_at").Some?
    ensures var r := EditPayload(postId, title, content, status, tags, current);
            r.Success? ==>
              var post := OnlyPost(r.value);
              && post.Some?
              && Lookup(post.value, "id") == Some(JStr(postId))
              && Lookup(post.value, "title") == Some(Merged(title, stored, "title"))
              && Lookup(post.value, "html") == Some(Merged(content, stored, "html"))
              && Lookup(post.value, "status") == Some(Merged(status, stored, "status"))
              && Lookup(post.value, "updated_at") == Lookup(stored, "updated_at")
              && (Lookup(post.value, "tags").Some? <==> tags.Some? && |tags.value| > 0)
              && (Lookup(post.value, "tags").Some? ==>
                    Lookup(post.value, "tags").value.JArr? &&
                    TagNames(Lookup(post.value, "tags").value.items) == Some(tags.value))
  {
    assert ([JObj(stored)] + more)[0] == JObj(stored);
    assert FirstPost(current) == Success(JObj(stored));
    var r := EditPayload(postId, title, content, status, tags, current);
    if r.Success? {
      var t := Merged(title, stored, "title");
      var h := Merged(content, stored, "html");
      var s := Merged(status, stored, "status");
      var u := Lookup(stored, "updated_at").value;
      assert r.value == Wrap(EditedMembers(postId, t, h, s, u, tags));
      EditedMembersShape(postId, t, h, s, u, tags);
    }
  }

  /** Supplying only a new status keeps the stored title and content verbatim
      and sends the stored updated_at. */
  lemma EditStatusOnly(postId: string, current: Json, stored: seq<(string, Json)>, t: Json, h: Json, u: Json)
    requires current.JObj? && Lookup(current.members, "posts") == Some(JArr([JObj(stored)]))
    requires Lookup(stored, "title") == Some(t) && Lookup(stored, "html") == Some(h)
    requires Lookup(stored, "updated_at") == Some(u)
    ensures EditPayload(postId, None, None, Some("published"), None, current) ==
              Success(JObj([("posts", JArr([JObj([("id", JStr(postId)), ("title", t), ("html", h),
                                                  ("status", JStr("published")), ("updated_at", u)])]))]))
  {
    assert FirstPost(current) == Success(JObj(stored));
    assert EditedMembers(postId, t, h, JStr("published"), u, None) ==
           [("id", JStr(postId)), ("title", t), ("html", h), ("status", JStr("published")), ("updated_at", u)];
  }

  /** Without a new title, a fetched post lacking "title" makes the merge raise
      `KeyError('title')`. */
  lemma EditMissingTitle(postId: string, content: Option<string>, status: Option<string>,
                         tags: Option<seq<string>>, current: Json, stored: seq<(string, Json)>)
    requires current.JObj? && Lookup(current.members, "posts") == Some(JArr([JObj(stored)]))
    requires Lookup(stored, "title").None?
    ensures EditPayload(postId, None, content, status, tags, current) == Failure(KeyError(Name("title")))
  {
    assert FirstPost(current) == Success(JObj(stored));
  }

  /** The text `edit_post` returns for the answer to its PUT. */
  function UpdateReply(response: Json): (reply: Reply)
    ensures reply.Raised? ==> reply.error == TypeError
    ensures reply.WithValue? ==> reply.prefix == "Error updating post: " && HasKey(response, "error")
    ensures reply.Plain? ==> StartsWith(reply.text, "Error processing post data: ")
    ensures reply.Dump? ==> !HasKey(response, "error") && reply.value.JObj? && |reply.value.members| == 5
    ensures !reply.WithDump?
    ensures response.JObj? && !HasKey(response, "error") && FirstPost(response).Success? ==>
              (!FirstPost(response).value.JObj? ==> reply == Raised(TypeError))
  {
    match Contains(response, "error")
    case Failure(e) => Raised(e)
    case Success(true) => ErrorReply("Error updating post: ", response)
    case Success(false) =>
      match FirstPost(response)
      case Failure(e) => ProcessingReply(e)
      case Success(post) =>
        match Project(post, UpdatedFields)
        case Failure(e) => ProcessingReply(e)
        case Success(updated) => Dump(updated)
  }

  /** `edit_post(post_id, title, content, status, tags)` with the clock reading
      `fetchIat` for the GET and `putIat` for the PUT. The GET of the post
      always comes first; a PUT of the merged payload follows only when the
      GET's dictionary has no "error" key and the merge succeeded. */
  function EditPost(env: Env, postId: string, title: Option<string>, content: Option<string>, status: Option<string>,
                    tags: Option<seq<string>>, fetchIat: int, putIat: int): (run: Run)
    ensures |run.sent| <= 2
    ensures |run.sent| >= 1 ==>
              run.sent[0].verb == GET && run.sent[0].body.None? &&
              run.sent[0].url == env.baseUrl + "/ghost/api/v4/admin/" + PostEndpoint(postId)
    ensures |run.sent| == 2 ==>
              var fetched := MakeRequest(env, PostEndpoint(postId), "GET", None, fetchIat).result;
              && Contains(fetched, "error") == Success(false)
              && run.sent[1].verb == PUT
              && run.sent[1].url == run.sent[0].url
              && EditPayload(postId, title, content, status, tags, fetched).Success?
              && run.sent[1].body == Some(EditPayload(postId, title, content, status, tags, fetched).value)
  {
    VerbLiterals();
    var endpoint := PostEndpoint(postId);
    var fetched := MakeRequest(env, endpoint, "GET", None, fetchIat);
    var first := SentList(fetched.sent);
    match Contains(fetched.result, "error")
    case Failure(e) => Run(Raised(e), first)
    case Success(true) => Run(ErrorReply("Error retrieving post: ", fetched.result), first)
    case Success(false) =>
      match EditPayload(postId, title, content, status, tags, fetched.result)
      case Failure(e) => Run(ProcessingReply(e), first)
      case Success(payload) =>
        var updated := MakeRequest(env, endpoint, "PUT", Some(payload), putIat);
        if updated.sent.Some? then
          // a PUT goes out only after the GET went out with the same key and signer
          assert fetched.sent.Some?;
          Run(UpdateReply(updated.result), first + [updated.sent.value])
        else Run(UpdateReply(updated.result), first)
  }

  /** With a well-formed key, a signer that works at both clock readings, a
      GET answer without "error" and a merge that succeeds, `edit_post` sends
      the GET and then the PUT, and its reply is the routing of the PUT's
      outcome. */
  lemma EditPutIssued(env: Env, id: string, secret: string, postId: string, title: Option<string>,
                      content: Option<string>, status: Option<string>, tags: Option<seq<string>>,
                      fetchIat: int, putIat: int)
    requires env.apiKey == id + ":" + secret && ':' !in id && ':' !in secret
    requires env.sign(JoseHeader("HS256", "JWT", id), Claims(fetchIat, fetchIat + 300, "/v4/admin/"), secret).Signed?
    requires env.sign(JoseHeader("HS256", "JWT", id), Claims(putIat, putIat + 300, "/v4/admin/"), secret).Signed?
    requires var fetched := MakeRequest(env, PostEndpoint(postId), "GET", None, fetchIat).result;
             && Contains(fetched, "error") == Success(false)
             && EditPayload(postId, title, content, status, tags, fetched).Success?
    ensures var run := EditPost(env, postId, title, content, status, tags, fetchIat, putIat);
            && |run.sent| == 2
            && run.sent[1].verb == PUT
            && run.reply == UpdateReply(Normalise(env.net(run.sent[1])))
  {
    VerbLiterals();
    var fetched := MakeRequest(env, PostEndpoint(postId), "GET", None, fetchIat).result;
    var payload := EditPayload(postId, title, content, status, tags, fetched).value;
    SentRequest(env, id, secret, PostEndpoint(postId), "GET", None, fetchIat, GET);
    SentRequest(env, id, secret, PostEndpoint(postId), "PUT", Some(payload), putIat, PUT);
  }

  /** When the token for the PUT cannot be produced, `edit_post` reports
      "Error updating post: " with the signing failure, after the GET alone. */
  lemma EditPutUnsigned(env: Env, id: string, secret: string, postId: string, title: Option<string>,
                        content: Option<string>, status: Option<string>, tags: Option<seq<string>>,
                        fetchIat: int, putIat: int)
    requires env.apiKey == id + ":" + secret && ':' !in id && ':' !in secret
    requires env.sign(JoseHeader("HS256", "JWT", id), Claims(fetchIat, fetchIat + 300, "/v4/admin/"), secret).Signed?
    requires env.sign(JoseHeader("HS256", "JWT", id), Claims(putIat, putIat + 300, "/v4/admin/"), secret).SignFailed?
    requires var fetched := MakeRequest(env, PostEndpoint(postId), "GET", None, fetchIat).result;
             && Contains(fetched, "error") == Success(false)
             && EditPayload(postId, title, content, status, tags, fetched).Success?
    ensures var run := EditPost(env, postId, title, content, status, tags, fetchIat, putIat);
            && run.reply == WithValue("Error updating post: ", JStr("Failed to generate JWT token: " +
                 env.sign(JoseHeader("HS256", "JWT", id), Claims(putIat, putIat + 300, "/v4/admin/"), secret).description))
            && |run.sent| == 1
            && run.sent[0].verb == GET
  {
    VerbLiterals();
    var fetched := MakeRequest(env, PostEndpoint(postId), "GET", None, fetchIat).result;
    var payload := EditPayload(postId, title, content, status, tags, fetched).value;
    var d := env.sign(JoseHeader("HS256", "JWT", id), Claims(putIat, putIat + 300, "/v4/admin/"), secret).description;
    SentRequest(env, id, secret, PostEndpoint(postId), "GET", None, fetchIat, GET);
    SigningInputs(env, id, secret, PostEndpoint(postId), "PUT", Some(payload), putIat);
    var e := ErrorObject("Failed to generate JWT token: " + d);
    LookupDistinct(e.members, 0);
    ErrorRouting(e);
  }

  /** Once the PUT went out, a clean answer whose `["posts"][0]` is not a dict
      makes `edit_post` raise `TypeError` past its `except (KeyError,
      IndexError)`, after both requests. */
  lemma EditPutRaises(env: Env, id: string, secret: string, postId: string, title: Option<string>,
                      content: Option<string>, status: Option<string>, tags: Option<seq<string>>,
                      fetchIat: int, putIat: int)
    requires env.apiKey == id + ":" + secret && ':' !in id && ':' !in secret
    requires env.sign(JoseHeader("HS256", "JWT", id), Claims(fetchIat, fetchIat + 300, "/v4/admin/"), secret).Signed?
    requires env.sign(JoseHeader("HS256", "JWT", id), Claims(putIat, putIat + 300, "/v4/admin/"), secret).Signed?
    requires var fetched := MakeRequest(env, PostEndpoint(postId), "GET", None, fetchIat).result;
             && Contains(fetched, "error") == Success(false)
             && EditPayload(postId, title, content, status, tags, fetched).Success?
    ensures var run := EditPost(env, postId, title, content, status, tags, fetchIat, putIat);
            && |run.sent| == 2
            && var answer := Normalise(env.net(run.sent[1]));
               (answer.JObj? && !HasKey(answer, "error") && FirstPost(answer).Success? &&
                !FirstPost(answer).value.JObj?) ==> run.reply == Raised(TypeError)
  {
    EditPutIssued(env, id, secret, postId, title, content, status, tags, fetchIat, putIat);
    var run := EditPost(env, postId, title, content, status, tags, fetchIat, putIat);
    var answer := Normalise(env.net(run.sent[1]));
    if answer.JObj? && !HasKey(answer, "error") {
      UpdateRaised(answer);
    }
  }

  /** When the GET's answer has no "error" but the merge raises, `edit_post`
      replies with the processing error and sends nothing after the GET. */
  lemma EditAbandoned(env: Env, postId: string, title: Option<string>, content: Option<string>,
                      status: Option<string>, tags: Option<seq<string>>, fetchIat: int, putIat: int)
    requires var fetched := MakeRequest(env, PostEndpoint(postId), "GET", None, fetchIat).result;
             Contains(fetched, "error") == Success(false) &&
             EditPayload(postId, title, content, status, tags, fetched).Failure?
    ensures var fetched := MakeRequest(env, PostEndpoint(postId), "GET", None, fetchIat);
            var run := EditPost(env, postId, title, content, status, tags, fetchIat, putIat);
            && run.reply == ProcessingReply(EditPayload(postId, title, content, status, tags, fetched.result).error)
            && run.sent == SentList(fetched.sent)
  {
  }

  /** A GET answer that is neither a dict, a list nor a string makes the
      membership test on it raise `TypeError`, which `edit_post` does not
      catch; no PUT is issued. */
  lemma EditFetchRaises(env: Env, postId: string, title: Option<string>, content: Option<string>,
                        status: Option<string>, tags: Option<seq<string>>, fetchIat: int, putIat: int)
    requires var fetched := MakeRequest(env, PostEndpoint(postId), "GET", None, fetchIat).result;
             !(fetched.JObj? || fetched.JArr? || fetched.JStr?)
    ensures var run := EditPost(env, postId, title, content, status, tags, fetchIat, putIat);
            run.reply == Raised(TypeError) && |run.sent| <= 1
  {
  }

  /** A clean GET answer whose `["posts"][0]` raises `TypeError` or is not a
      dict makes the merge raise `TypeError` inside the `try`; `except
      (KeyError, IndexError)` lets it escape, and no PUT is issued. */
  lemma EditFetchPostRaises(env: Env, postId: string, title: Option<string>, content: Option<string>,
                            status: Option<string>, tags: Option<seq<string>>, fetchIat: int, putIat: int)
    requires var fetched := MakeRequest(env, PostEndpoint(postId), "GET", None, fetchIat).result;
             && fetched.JObj? && Lookup(fetched.members, "error").None?
             && (|| FirstPost(fetched) == Failure(TypeError)
                 || (FirstPost(fetched).Success? && !FirstPost(fetched).value.JObj?))
    ensures var run := EditPost(env, postId, title, content, status, tags, fetchIat, putIat);
            run.reply == Raised(TypeError) && |run.sent| <= 1
  {
    var fetched := MakeRequest(env, PostEndpoint(postId), "GET", None, fetchIat).result;
    assert Contains(fetched, "error") == Success(false);
    EditAbandoned(env, postId, title, content, status, tags, fetchIat, putIat);
  }

  /** When the GET's dictionary carries "error", the tool answers "Error
      retrieving post: " followed by that value and no PUT is issued. */
  lemma EditFetchFailure(env: Env, postId: string, title: Option<string>, content: Option<string>,
                         status: Option<string>, tags: Option<seq<string>>, fetchIat: int, putIat: int)
    requires HasKey(MakeRequest(env, PostEndpoint(postId), "GET", None, fetchIat).result, "error")
    ensures var run := EditPost(env, postId, title, content, status, tags, fetchIat, putIat);
            && run.reply == WithValue("Error retrieving post: ",
                 Lookup(MakeRequest(env, PostEndpoint(postId), "GET", None, fetchIat).result.members, "error").value)
            && |run.sent| <= 1
            && forall r :: r in run.sent ==> r.verb == GET
  {
  }

  /** A fetched post missing a field the merge needs is reported as "Error
      processing post data: " followed by the quoted field name, after the GET
      alone. */
  lemma EditMissingField(env: Env, postId: string, title: Option<string>, content: Option<string>,
                         status: Option<string>, tags: Option<seq<string>>, fetchIat: int, putIat: int,
                         stored: seq<(string, Json)>)
    requires var fetched := MakeRequest(env, PostEndpoint(postId), "GET", None, fetchIat).result;
             fetched.JObj? && Lookup(fetched.members, "error").None? &&
             Lookup(fetched.members, "posts") == Some(JArr([JObj(stored)]))
    requires title.None? && Lookup(stored, "title").None?
    ensures var run := EditPost(env, postId, title, content, status, tags, fetchIat, putIat);
            run.reply == Plain("Error processing post data: 'title'") && |run.sent| <= 1
  {
    var fetched := MakeRequest(env, PostEndpoint(postId), "GET", None, fetchIat).result;
    EditMissingTitle(postId, content, status, tags, fetched, stored);
    assert Contains(fetched, "error") == Success(false);
    TitleKeyText();
  }

  /** A GET answer without "posts" is reported as "Error processing post
      data: 'posts'", after the GET alone. */
  lemma EditFetchNoPosts(env: Env, postId: string, title: Option<string>, content: Option<string>,
                         status: Option<string>, tags: Option<seq<string>>, fetchIat: int, putIat: int)
    requires var fetched := MakeRequest(env, PostEndpoint(postId), "GET", None, fetchIat).result;
             fetched.JObj? && Lookup(fetched.members, "error").None? && Lookup(fetched.members, "posts").None?
    ensures var run := EditPost(env, postId, title, content, status, tags, fetchIat, putIat);
            run.reply == Plain("Error processing post data: 'posts'") && |run.sent| <= 1
  {
    var fetched := MakeRequest(env, PostEndpoint(postId), "GET", None, fetchIat).result;
    assert Contains(fetched, "error") == Success(false);
    FirstPostMissing(fetched);
    EditAbandoned(env, postId, title, content, status, tags, fetchIat, putIat);
    PostsKeyText();
  }

  /** A GET answer with an empty post list is reported as "Error processing
      post data: list index out of range", after the GET alone. */
  lemma EditFetchNoPost(env: Env, postId: string, title: Option<string>, content: Option<string>,
                        status: Option<string>, tags: Option<seq<string>>, fetchIat: int, putIat: int)
    requires var fetched := MakeRequest(env, PostEndpoint(postId), "GET", None, fetchIat).result;
             fetched.JObj? && Lookup(fetched.members, "error").None? &&
             Lookup(fetched.members, "posts") == Some(JArr([]))
    ensures var run := EditPost(env, postId, title, content, status, tags, fetchIat, putIat);
            run.reply == Plain("Error processing post data: " + "list index out of range") && |run.sent| <= 1
  {
    var fetched := MakeRequest(env, PostEndpoint(postId), "GET", None, fetchIat).result;
    assert Contains(fetched, "error") == Success(false);
    FirstPostMissing(fetched);
    EditAbandoned(env, postId, title, content, status, tags, fetchIat, putIat);
    EmptyListText();
  }

  /** Without a field it must fall back on, or without updated_at, the merge
      raises `KeyError` for one of the missing fields. */
  lemma EditPayloadMissing(postId: string, title: Option<string>, content: Option<string>,
                           status: Option<string>, tags: Option<seq<string>>, current: Json,
                           stored: seq<(string, Json)>, more: seq<Json>)
    requires current.JObj? && Lookup(current.members, "posts") == Some(JArr([JObj(stored)] + more))
    requires || (title.None? && Lookup(stored, "title").None?)
             || (content.None? && Lookup(stored, "html").None?)
             || (status.None? && Lookup(stored, "status").None?)
             || Lookup(stored, "updated_at").None?
    ensures exists f :: f in ["title", "html", "status", "updated_at"] && Lookup(stored, f).None? &&
              EditPayload(postId, title, content, status, tags, current) == Failure(KeyError(Name(f)))
  {
    assert ([JObj(stored)] + more)[0] == JObj(stored);
    assert FirstPost(current) == Success(JObj(stored));
    var p := EditPayload(postId, title, content, status, tags, current);
    if title.None? && Lookup(stored, "title").None? {
      assert p == Failure(KeyError(Name("title")));
    } else if content.None? && Lookup(stored, "html").None? {
      assert p == Failure(KeyError(Name("html")));
    } else if status.None? && Lookup(stored, "status").None? {
      assert p == Failure(KeyError(Name("status")));
    } else {
      assert p == Failure(KeyError(Name("updated_at")));
    }
  }

  /** A fetched post lacking a field the merge needs (a field the caller did
      not supply, or updated_at) is reported as "Error processing post data: "
      followed by the quoted name of a missing field, after the GET alone. */
  lemma EditStoredIncomplete(env: Env, postId: string, title: Option<string>, content: Option<string>,
                             status: Option<string>, tags: Option<seq<string>>, fetchIat: int, putIat: int,
                             stored: seq<(string, Json)>, more: seq<Json>)
    requires var fetched := MakeRequest(env, PostEndpoint(postId), "GET", None, fetchIat).result;
             fetched.JObj? && Lookup(fetched.members, "error").None? &&
             Lookup(fetched.members, "posts") == Some(JArr([JObj(stored)] + more))
    requires || (title.None? && Lookup(stored, "title").None?)
             || (content.None? && Lookup(stored, "html").None?)
             || (status.None? && Lookup(stored, "status").None?)
             || Lookup(stored, "updated_at").None?
    ensures var run := EditPost(env, postId, title, content, status, tags, fetchIat, putIat);
            && |run.sent| <= 1
            && exists f :: f in ["title", "html", "status", "updated_at"] && Lookup(stored, f).None? &&
                 run.reply == Plain("Error processing post data: " + Quoted(f))
  {
    var fetched := MakeRequest(env, PostEndpoint(postId), "GET", None, fetchIat).result;
    assert Contains(fetched, "error") == Success(false);
    EditPayloadMissing(postId, title, content, status, tags, fetched, stored, more);
    var f :| f in ["title", "html", "status", "updated_at"] && Lookup(stored, f).None? &&
             EditPayload(postId, title, content, status, tags, fetched) == Failure(KeyError(Name(f)));
    EditAbandoned(env, postId, title, content, status, tags, fetchIat, putIat);
  }

  /** An object answer carrying "error" is reported by each tool as its own
      "Error ...: " prefix followed by that value. */
  lemma ErrorRouting(response: Json)
    requires HasKey(response, "error")
    ensures var v := Lookup(response.members, "error").value;
            && CreateReply(response) == WithValue("Error creating post: ", v)
            && ListReply(response) == WithValue("Error listing posts: ", v)
            && UpdateReply(response) == WithValue("Error updating post: ", v)
  {
  }

  /** An answer that is neither a dict, a list nor a string makes the
      membership test raise `TypeError`, which no tool catches. */
  lemma NonContainerRaises(response: Json)
    requires !(response.JObj? || response.JArr? || response.JStr?)
    ensures CreateReply(response) == Raised(TypeError)
    ensures ListReply(response) == Raised(TypeError)
    ensures UpdateReply(response) == Raised(TypeError)
  {
  }

  /** A malformed Admin API key (zero or several colons) makes every tool
      report the key format error under its own prefix, and nothing is sent. */
  lemma InvalidKeyEverywhere(env: Env, title: string, content: string, status: string, tags: Option<seq<string>>,
                             limit: int, listStatus: string, postId: string, newTitle: Option<string>,
                             newContent: Option<string>, newStatus: Option<string>, iat: int, putIat: int)
    requires Count(env.apiKey, ':') != 1
    ensures CreatePost(env, title, content, status, tags, iat) ==
              Run(WithValue("Error creating post: ", JStr("Invalid API key format. Expected 'ID:SECRET'")), [])
    ensures ListPosts(env, limit, listStatus, iat) ==
              Run(WithValue("Error listing posts: ", JStr("Invalid API key format. Expected 'ID:SECRET'")), [])
    ensures EditPost(env, postId, newTitle, newContent, newStatus, tags, iat, putIat) ==
              Run(WithValue("Error retrieving post: ", JStr("Invalid API key format. Expected 'ID:SECRET'")), [])
  {
    var e := ErrorObject(InvalidKeyMessage);
    LookupDistinct(e.members, 0);
    ErrorRouting(e);
  }

  /** With a well-formed key whose token cannot be produced, every tool
      reports "Failed to generate JWT token: " and the signer's text under its
      own prefix, and nothing is sent. */
  lemma SigningFailureEverywhere(env: Env, id: string, secret: string, title: string, content: string,
                                 status: string, tags: Option<seq<string>>, limit: int, listStatus: string,
                                 postId: string, newTitle: Option<string>, newContent: Option<string>,
                                 newStatus: Option<string>, iat: int, putIat: int)
    requires env.apiKey == id + ":" + secret && ':' !in id && ':' !in secret
    requires env.sign(JoseHeader("HS256", "JWT", id), Claims(iat, iat + 300, "/v4/admin/"), secret).SignFailed?
    ensures var reason := JStr("Failed to generate JWT token: " +
                               env.sign(JoseHeader("HS256", "JWT", id), Claims(iat, iat + 300, "/v4/admin/"), secret).description);
            && CreatePost(env, title, content, status, tags, iat) == Run(WithValue("Error creating post: ", reason), [])
            && ListPosts(env, limit, listStatus, iat) == Run(WithValue("Error listing posts: ", reason), [])
            && EditPost(env, postId, newTitle, newContent, newStatus, tags, iat, putIat) ==
                 Run(WithValue("Error retrieving post: ", reason), [])
  {
    var d := env.sign(JoseHeader("HS256", "JWT", id), Claims(iat, iat + 300, "/v4/admin/"), secret).description;
    SigningInputs(env, id, secret, "posts/?source=html", "POST", Some(CreatePayload(title, content, status, tags)), iat);
    SigningInputs(env, id, secret, ListEndpoint(limit, listStatus), "GET", None, iat);
    SigningInputs(env, id, secret, PostEndpoint(postId), "GET", None, iat);
    var e := ErrorObject("Failed to generate JWT token: " + d);
    LookupDistinct(e.members, 0);
    ErrorRouting(e);
  }

  /** A well-formed update answer is reduced to id, title, url, status and
      updated_at of the first post, in that order. */
  lemma UpdateSuccess(response: Json, post: seq<(string, Json)>, more: seq<Json>)
    requires response.JObj? && !HasKey(response, "error")
    requires Lookup(response.members, "posts") == Some(JArr([JObj(post)] + more))
    requires forall f :: f in UpdatedFields ==> Lookup(post, f).Some?
    ensures UpdateReply(response) ==
              Dump(JObj([("id", Lookup(post, "id").value),
                         ("title", Lookup(post, "title").value),
                         ("url", Lookup(post, "url").value),
                         ("status", Lookup(post, "status").value),
                         ("updated_at", Lookup(post, "updated_at").value)]))
  {
    assert ([JObj(post)] + more)[0] == JObj(post);
    assert Contains(response, "error") == Success(false);
    assert FirstPost(response) == Success(JObj(post));
    ProjectObject(post, UpdatedFields);
    var r := Project(JObj(post), UpdatedFields).value;
    assert r.members == [r.members[0], r.members[1], r.members[2], r.members[3], r.members[4]];
  }

  /** An update answer without "posts" is reported as the quoted key, and
      one with an empty post list as the list index error. */
  lemma UpdateMissingPosts(response: Json)
    requires response.JObj? && !HasKey(response, "error")
    ensures Lookup(response.members, "posts").None? ==>
              UpdateReply(response) == Plain("Error processing post data: 'posts'")
    ensures Lookup(response.members, "posts") == Some(JArr([])) ==>
              UpdateReply(response) == Plain("Error processing post data: " + "list index out of range")
  {
    assert Contains(response, "error") == Success(false);
    FirstPostMissing(response);
    PostsKeyText();
    EmptyListText();
  }

  /** After a clean answer whose first post is `post`, a failing projection
      of the post is reported as the processing error it raised. */
  lemma UpdateRouting(response: Json, post: Json)
    requires response.JObj? && !HasKey(response, "error") && FirstPost(response) == Success(post)
    ensures Project(post, UpdatedFields).Failure? ==>
              UpdateReply(response) == ProcessingReply(Project(post, UpdatedFields).error)
  {
    assert Contains(response, "error") == Success(false);
  }

  /** On an object answer to the PUT without "error", `edit_post` raises
      exactly when `response["posts"][0]` raises `TypeError` or yields
      something that is not a dict: the `TypeError` passes the `except
      (KeyError, IndexError)` instead of becoming "Error processing post
      data". */
  lemma UpdateRaised(response: Json)
    requires response.JObj? && !HasKey(response, "error")
    ensures UpdateReply(response).Raised? <==>
              || FirstPost(response) == Failure(TypeError)
              || (FirstPost(response).Success? && !FirstPost(response).value.JObj?)
  {
    var p := FirstPost(response);
    if p.Success? {
      if p.value.JObj? {
        ProjectObject(p.value.members, UpdatedFields);
      } else {
        ProjectNonObject(p.value, UpdatedFields);
      }
    }
  }

  /** An update answer whose first post lacks one of the five fields is
      reported with the quoted name of the first of id, title, url, status,
      updated_at that is missing. */
  lemma UpdateMissingField(response: Json, m: seq<(string, Json)>, more: seq<Json>)
    requires response.JObj? && !HasKey(response, "error")
    requires Lookup(response.members, "posts") == Some(JArr([JObj(m)] + more))
    requires exists f :: f in UpdatedFields && Lookup(m, f).None?
    ensures exists i :: 0 <= i < |UpdatedFields| && Lookup(m, UpdatedFields[i]).None? &&
              (forall j :: 0 <= j < i ==> Lookup(m, UpdatedFields[j]).Some?) &&
              UpdateReply(response) == Plain("Error processing post data: " + Quoted(UpdatedFields[i]))
  {
    assert ([JObj(m)] + more)[0] == JObj(m);
    assert FirstPost(response) == Success(JObj(m));
    ProjectFirstMissing(m, UpdatedFields);
    var i :| 0 <= i < |UpdatedFields| && Lookup(m, UpdatedFields[i]).None? &&
             (forall j :: 0 <= j < i ==> Lookup(m, UpdatedFields[j]).Some?) &&
             Project(JObj(m), UpdatedFields) == Failure(KeyError(Name(UpdatedFields[i])));
    UpdateRouting(response, JObj(m));
  }

  /** An update answer without "posts", with an empty list, or whose first
      post lacks one of the five fields, is reported as "Error processing
      post data: " followed by the text of the `KeyError` or `IndexError`. */
  lemma UpdateMalformed(response: Json)
    requires response.JObj? && !HasKey(response, "error")
    requires var posts := Lookup(response.members, "posts");
             || posts.None?
             || posts == Some(JArr([]))
             || (posts.value.JArr? && |posts.value.items| > 0 && posts.value.items[0].JObj? &&
                 exists f :: f in UpdatedFields && Lookup(posts.value.items[0].members, f).None?)
    ensures UpdateReply(response).Plain?
    ensures StartsWith(UpdateReply(response).text, "Error processing post data: ")
  {
    var posts := Lookup(response.members, "posts");
    if posts.Some? && posts.value.JArr? && |posts.value.items| > 0 {
      ProjectObject(posts.value.items[0].members, UpdatedFields);
    }
  }
}

=== FILE: json.dfy ===
/**
 JSON values as the server sees them after `json.loads`, and the few Python
 operations its handlers apply to them: subscripting (`v["k"]`, `v[0]`), the
 membership test `"k" in v`, truthiness and building a dictionary literal
 from looked-up fields.
 */
module JsonModel {
  import opened Wrappers
  import opened Text

  /** A JSON value. Objects keep their members in order, as Python dicts keep
      insertion order. */
  datatype Json =
    | JNull
    | JBool(b: bool)
    | JInt(i: int)
    | JStr(s: string)
    | JArr(items: seq<Json>)
    | JObj(members: seq<(string, Json)>)

  /** The value stored under `key`. When a decoded object repeats a key the
      later member wins, as it does for `json.loads`. */
  function Lookup(members: seq<(string, Json)>, key: string): Option<Json>
  {
    if |members| == 0 then None
    else if members[|members| - 1].0 == key then Some(members[|members| - 1].1)
    else Lookup(members[..|members| - 1], key)
  }

  /** Lookup finds a key exactly when some member has it, and then returns the
      value of the last member that has it. */
  lemma {:induction false} LookupSpec(members: seq<(string, Json)>, key: string)
    ensures Lookup(members, key).Some? <==> exists i :: 0 <= i < |members| && members[i].0 == key
    ensures Lookup(members, key).Some? ==>
              exists i :: 0 <= i < |members| && members[i] == (key, Lookup(members, key).value) &&
                forall j :: i < j < |members| ==> members[j].0 != key
  {
    if |members| > 0 && members[|members| - 1].0 != key {
      var front := members[..|members| - 1];
      LookupSpec(front, key);
      assert forall i :: 0 <= i < |members| - 1 ==> front[i] == members[i];
    }
  }

  /** In an object whose keys are distinct, the member at position `i` is what
      lookup of its key returns. */
  lemma {:induction false} LookupDistinct(members: seq<(string, Json)>, i: nat)
    requires i < |members|
    requires forall j, k :: 0 <= j < k < |members| ==> members[j].0 != members[k].0
    ensures Lookup(members, members[i].0) == Some(members[i].1)
  {
    if i < |members| - 1 {
      var front := members[..|members| - 1];
      assert front[i] == members[i];
      LookupDistinct(front, i);
    }
  }

  /** A key no member carries is not found. */
  lemma {:induction false} LookupAbsent(members: seq<(string, Json)>, key: string)
    requires forall i :: 0 <= i < |members| ==> members[i].0 != key
    ensures Lookup(members, key) == None
  {
    if |members| > 0 {
      var front := members[..|members| - 1];
      assert forall i :: 0 <= i < |front| ==> front[i] == members[i];
      LookupAbsent(front, key);
    }
  }

  predicate HasKey(v: Json, key: string)
  {
    v.JObj? && Lookup(v.members, key).Some?
  }

  /** A subscript: a dictionary key or a list/string position. */
  datatype Key = Name(name: string) | Position(index: int)

  /** The exceptions a subscript or a membership test can raise. `IndexError`
      records whether a string (rather than a list) was indexed. */
  datatype PyError = KeyError(key: Key) | IndexError(inString: bool) | TypeError

  /** Python's `v[k]`. */
  function Subscript(v: Json, k: Key): (r: Result<Json, PyError>)
    ensures v.JObj? && k.Name? ==>
              (r.Success? <==> HasKey(v, k.name)) &&
              (r.Failure? ==> r.error == KeyError(k))
    ensures v.JArr? && k.Position? && 0 <= k.index < |v.items| ==> r == Success(v.items[k.index])
    ensures r.Failure? && r.error.IndexError? ==> k.Position? && (v.JArr? || v.JStr?)
    ensures !v.JObj? && !v.JArr? && !v.JStr? ==> r == Failure(TypeError)
  {
    match v
    case JObj(m) =>
      if k.Name? then
        match Lookup(m, k.name)
        case Some(x) => Success(x)
        case None => Failure(KeyError(k))
      else Failure(KeyError(k))
    case JArr(xs) =>
      if k.Name? then Failure(TypeError)
      else if -|xs| <= k.index < |xs| then
        Success(xs[if k.index < 0 then k.index + |xs| else k.index])
      else Failure(IndexError(false))
    case JStr(s) =>
      if k.Name? then Failure(TypeError)
      else if -|s| <= k.index < |s| then
        Success(JStr([s[if k.index < 0 then k.index + |s| else k.index]]))
      else Failure(IndexError(true))
    case _ => Failure(TypeError)
  }

  /** Python's `needle in v` for a string `needle`: a key test on a dict, an
      element test on a list, a substring test on a string, and a `TypeError`
      on anything that is not a container. */
  function Contains(v: Json, needle: string): (r: Result<bool, PyError>)
    ensures v.JObj? ==> r == Success(HasKey(v, needle))
    ensures r.Failure? <==> !(v.JObj? || v.JArr? || v.JStr?)
    ensures r.Failure? ==> r.error == TypeError
  {
    match v
    case JObj(m) => Success(Lookup(m, needle).Some?)
    case JArr(xs) => Success(JStr(needle) in xs)
    case JStr(s) => Success(IsSubstring(needle, s))
    case _ => Failure(TypeError)
  }

  /** Python truthiness of a decoded JSON value. */
  predicate Truthy(v: Json)
  {
    match v
    case JNull => false
    case JBool(b) => b
    case JInt(i) => i != 0
    case JStr(s) => |s| > 0
    case JArr(xs) => |xs| > 0
    case JObj(m) => |m| > 0
  }

  /** The dictionary literal `{f: v[f] for f in fields}` written out key by
      key: lookups run in field order and the first one that raises ends the
      construction. */
  function Project(v: Json, fields: seq<string>): (r: Result<Json, PyError>)
    ensures r.Success? ==>
              r.value.JObj? && |r.value.members| == |fields| &&
              forall i :: 0 <= i < |fields| ==>
                r.value.members[i].0 == fields[i] &&
                Subscript(v, Name(fields[i])) == Success(r.value.members[i].1)
    ensures r.Failure? ==>
              exists i :: 0 <= i < |fields| && Subscript(v, Name(fields[i])) == Failure(r.error) &&
                forall j :: 0 <= j < i ==> Subscript(v, Name(fields[j])).Success?
  {
    if |fields| == 0 then Success(JObj([]))
    else
      match Subscript(v, Name(fields[0]))
      case Failure(e) => Failure(e)
      case Success(x) =>
        match Project(v, fields[1..])
        case Failure(e) =>
          assert forall i :: 0 <= i < |fields| - 1 ==> fields[1..][i] == fields[i + 1];
          Failure(e)
        case Success(rest) =>
          assert forall i :: 0 <= i < |fields| - 1 ==> fields[1..][i] == fields[i + 1];
          Success(JObj([(fields[0], x)] + rest.members))
  }

  /** Projection of an object succeeds exactly when every field is present,
      and then carries, in field order, the stored values. */
  lemma {:induction false} ProjectObject(m: seq<(string, Json)>, fields: seq<string>)
    ensures Project(JObj(m), fields).Success? <==>
              forall i :: 0 <= i < |fields| ==> Lookup(m, fields[i]).Some?
    ensures Project(JObj(m), fields).Success? ==>
              forall i :: 0 <= i < |fields| ==>
                Project(JObj(m), fields).value.members[i] == (fields[i], Lookup(m, fields[i]).value)
    ensures Project(JObj(m), fields).Failure? ==>
              exists i :: 0 <= i < |fields| && Lookup(m, fields[i]).None? &&
                Project(JObj(m), fields).error == KeyError(Name(fields[i]))
  {
    var r := Project(JObj(m), fields);
    if r.Failure? {
      var i :| 0 <= i < |fields| && Subscript(JObj(m), Name(fields[i])) == Failure(r.error);
      assert Lookup(m, fields[i]).None?;
    }
  }

  /** Projection of a value that is not an object raises `TypeError` at the
      first field. */
  lemma ProjectNonObject(v: Json, fields: seq<string>)
    requires !v.JObj? && |fields| > 0
    ensures Project(v, fields) == Failure(TypeError)
  {
  }

  /** `[{f: p[f] for f in fields} for p in posts]`: the projections of every
      element in order, or the first error raised. */
  function ProjectEach(posts: seq<Json>, fields: seq<string>): (r: Result<seq<Json>, PyError>)
    ensures r.Success? ==>
              |r.value| == |posts| &&
              forall i :: 0 <= i < |posts| ==> Project(posts[i], fields) == Success(r.value[i])
    ensures r.Failure? ==>
              exists i :: 0 <= i < |posts| && Project(posts[i], fields) == Failure(r.error) &&
                forall j :: 0 <= j < i ==> Project(posts[j], fields).Success?
  {
    if |posts| == 0 then Success([])
    else
      match Project(posts[0], fields)
      case Failure(e) => Failure(e)
      case Success(x) =>
        match ProjectEach(posts[1..], fields)
        case Failure(e) =>
          assert forall i :: 0 <= i < |posts| - 1 ==> posts[1..][i] == posts[i + 1];
          Failure(e)
        case Success(rest) =>
          assert forall i :: 0 <= i < |posts| - 1 ==> posts[1..][i] == posts[i + 1];
          Success([x] + rest)
  }

  /** When the posts before position i are objects holding every field and
      the post at i is not an object, the loop raises `TypeError` there. */
  lemma {:induction false} ProjectEachNonObject(posts: seq<Json>, fields: seq<string>, i: nat)
    requires |fields| > 0 && i < |posts| && !posts[i].JObj?
    requires forall j :: 0 <= j < i ==>
               posts[j].JObj? && forall f :: f in fields ==> Lookup(posts[j].members, f).Some?
    ensures ProjectEach(posts, fields) == Failure(TypeError)
  {
    if i == 0 {
      ProjectNonObject(posts[0], fields);
    } else {
      ProjectObject(posts[0].members, fields);
      assert Project(posts[0], fields).Success? by {
        forall k | 0 <= k < |fields| ensures Lookup(posts[0].members, fields[k]).Some? {
          assert fields[k] in fields;
        }
      }
      ProjectEachNonObject(posts[1..], fields, i - 1);
    }
  }

  /** Over a list of objects, the per-post projection succeeds exactly when
      every post has every field, and otherwise raises `KeyError`. */
  lemma ProjectEachObjects(posts: seq<Json>, fields: seq<string>)
    requires forall i :: 0 <= i < |posts| ==> posts[i].JObj?
    ensures ProjectEach(posts, fields).Success? <==>
              forall i, f :: 0 <= i < |posts| && f in fields ==> Lookup(posts[i].members, f).Some?
    ensures ProjectEach(posts, fields).Failure? ==> ProjectEach(posts, fields).error.KeyError?
  {
    var r := ProjectEach(posts, fields);
    if r.Failure? {
      var j :| 0 <= j < |posts| && Project(posts[j], fields) == Failure(r.error);
      ProjectObject(posts[j].members, fields);
      var k :| 0 <= k < |fields| && Lookup(posts[j].members, fields[k]).None?;
      assert fields[k] in fields;
    } else {
      forall i, f | 0 <= i < |posts| && f in fields
        ensures Lookup(posts[i].members, f).Some?
      {
        ProjectObject(posts[i].members, fields);
        var k :| 0 <= k < |fields| && fields[k] == f;
      }
    }
  }

  /** Projecting an object that lacks some field raises `KeyError` for the
      first missing field in field order. */
  lemma ProjectFirstMissing(m: seq<(string, Json)>, fields: seq<string>)
    requires exists f :: f in fields && Lookup(m, f).None?
    ensures exists i :: 0 <= i < |fields| && Lookup(m, fields[i]).None? &&
              (forall j :: 0 <= j < i ==> Lookup(m, fields[j]).Some?) &&
              Project(JObj(m), fields) == Failure(KeyError(Name(fields[i])))
  {
    ProjectObject(m, fields);
    var r := Project(JObj(m), fields);
    var i :| 0 <= i < |fields| && Subscript(JObj(m), Name(fields[i])) == Failure(r.error) &&
             forall j :: 0 <= j < i ==> Subscript(JObj(m), Name(fields[j])).Success?;
    assert Lookup(m, fields[i]).None?;
  }
}

=== FILE: text.dfy ===
/**
 The string operations of Python that the server relies on: `str.split` with a
 one-character separator, `str.upper`, `str(int)` and the substring test `in`.
 */
module Text {
  import opened Wrappers

  /** Number of occurrences of `c` in `s`. */
  function Count(s: string, c: char): nat
  {
    if |s| == 0 then 0 else (if s[0] == c then 1 else 0) + Count(s[1..], c)
  }

  /** Python's `s.split(sep)`: the maximal separator-free pieces of `s`, so an
      empty string gives one empty piece and adjacent separators give an empty
      piece between them. */
  function Split(s: string, sep: char): (parts: seq<string>)
    ensures |parts| >= 1
  {
    if |s| == 0 then [""]
    else
      var rest := Split(s[1..], sep);
      if s[0] == sep then [""] + rest
      else [[s[0]] + rest[0]] + rest[1..]
  }

  /** Python's `sep.join(parts)`. */
  function Join(parts: seq<string>, sep: char): string
  {
    if |parts| == 0 then ""
    else if |parts| == 1 then parts[0]
    else parts[0] + [sep] + Join(parts[1..], sep)
  }

  /** Splitting yields one piece more than there are separators. */
  lemma {:induction false} SplitCount(s: string, sep: char)
    ensures |Split(s, sep)| == Count(s, sep) + 1
  {
    if |s| > 0 {
      SplitCount(s[1..], sep);
    }
  }

  /** No piece produced by splitting contains the separator. */
  lemma {:induction false} SplitPiecesFree(s: string, sep: char)
    ensures forall i :: 0 <= i < |Split(s, sep)| ==> sep !in Split(s, sep)[i]
  {
    if |s| > 0 {
      SplitPiecesFree(s[1..], sep);
      var rest := Split(s[1..], sep);
      if s[0] != sep {
        var parts := Split(s, sep);
        assert parts[0] == [s[0]] + rest[0];
        forall i | 0 <= i < |parts|
          ensures sep !in parts[i]
        {
          if i > 0 {
            assert parts[i] == rest[i];
          }
        }
      }
    }
  }

  lemma JoinGlue(p: string, q: string, t: seq<string>, sep: char)
    ensures Join([p + q] + t, sep) == p + Join([q] + t, sep)
  {
    if |t| > 0 {
      assert ([p + q] + t)[1..] == t;
      assert ([q] + t)[1..] == t;
    }
  }

  /** Joining the pieces with the separator gives the original string back. */
  lemma {:induction false} SplitJoin(s: string, sep: char)
    ensures Join(Split(s, sep), sep) == s
  {
    if |s| > 0 {
      SplitJoin(s[1..], sep);
      var rest := Split(s[1..], sep);
      if s[0] == sep {
        assert ([""] + rest)[1..] == rest;
        assert s == [sep] + s[1..];
      } else {
        assert rest == [rest[0]] + rest[1..];
        JoinGlue([s[0]], rest[0], rest[1..], sep);
        assert s == [s[0]] + s[1..];
      }
    }
  }

  /** A separator-free string is a single piece. */
  lemma {:induction false} SplitFree(a: string, sep: char)
    requires sep !in a
    ensures Split(a, sep) == [a]
  {
    if |a| > 0 {
      assert sep !in a[1..];
      SplitFree(a[1..], sep);
      assert a == [a[0]] + a[1..];
    }
  }

  /** Splitting distributes over a separator placed between two strings. */
  lemma {:induction false} SplitAround(a: string, b: string, sep: char)
    ensures Split(a + [sep] + b, sep) == Split(a, sep) + Split(b, sep)
    decreases |a|, 1
  {
    if |a| == 0 {
      assert a + [sep] + b == [sep] + b;
      assert ([sep] + b)[1..] == b;
    } else {
      SplitAroundStep(a, b, sep);
    }
  }

  lemma {:induction false} SplitAroundStep(a: string, b: string, sep: char)
    requires |a| > 0
    ensures Split(a + [sep] + b, sep) == Split(a, sep) + Split(b, sep)
    decreases |a|, 0
  {
    var t := a[1..] + [sep] + b;
    assert a + [sep] + b == [a[0]] + t;
    assert a == [a[0]] + a[1..];
    SplitCons(a[0], t, sep);
    SplitCons(a[0], a[1..], sep);
    SplitAround(a[1..], b, sep);
  }

  /** One step of splitting. */
  lemma SplitCons(c: char, t: string, sep: char)
    ensures Split([c] + t, sep) ==
              if c == sep then [""] + Split(t, sep)
              else [[c] + Split(t, sep)[0]] + Split(t, sep)[1..]
  {
    assert ([c] + t)[1..] == t;
  }

  /** Upper-case form of one character under Python's `str.upper`, exact for
      ASCII and for every non-ASCII character whose upper-case form consists of
      ASCII letters alone: sharp s (SS), dotless i (I), long s (S) and the
      ligatures ff, fi, fl, ffi, ffl, long-s t and st. Any other character is
      kept as it is; its real upper-case form is never made of ASCII letters
      only, so comparisons against ASCII words are unaffected. */
  function UpperChar(c: char): (u: string)
    ensures |u| >= 1
  {
    if c as int < 128 then [AsciiUpper(c)]
    else if c == '\U{DF}' then "SS"
    else if c == '\U{131}' then "I"
    else if c == '\U{17F}' then "S"
    else if c == '\U{FB00}' then "FF"
    else if c == '\U{FB01}' then "FI"
    else if c == '\U{FB02}' then "FL"
    else if c == '\U{FB03}' then "FFI"
    else if c == '\U{FB04}' then "FFL"
    else if c == '\U{FB05}' || c == '\U{FB06}' then "ST"
    else [c]
  }

  /** Python's `s.upper()` (see `UpperChar`). */
  function Upper(s: string): string
  {
    if |s| == 0 then "" else UpperChar(s[0]) + Upper(s[1..])
  }

  predicate IsAscii(s: string)
  {
    forall i :: 0 <= i < |s| ==> s[i] as int < 128
  }

  /** Upper-case form of an ASCII character. */
  function AsciiUpper(c: char): char
  {
    if 'a' <= c <= 'z' then (c as int - 32) as char else c
  }

  /** On ASCII input, upper-casing acts character by character and keeps the
      length. */
  lemma {:induction false} UpperAscii(s: string)
    requires IsAscii(s)
    ensures |Upper(s)| == |s|
    ensures forall i :: 0 <= i < |s| ==> Upper(s)[i] == AsciiUpper(s[i])
  {
    if |s| > 0 {
      assert IsAscii(s[1..]) by {
        forall i | 0 <= i < |s[1..]| ensures s[1..][i] as int < 128 {
          assert s[1..][i] == s[i + 1];
        }
      }
      UpperAscii(s[1..]);
      assert s[0] as int < 128;
      assert UpperChar(s[0]) == [AsciiUpper(s[0])];
    }
  }

  predicate IsDigit(c: char)
  {
    '0' <= c <= '9'
  }

  predicate AllDigits(s: string)
  {
    forall i :: 0 <= i < |s| ==> IsDigit(s[i])
  }

  function DigitChar(d: nat): char
    requires d < 10
  {
    ('0' as int + d) as char
  }

  function DigitValue(c: char): nat
    requires IsDigit(c)
  {
    c as int - '0' as int
  }

  /** Decimal digits of a natural number, most significant first. */
  function NatToString(n: nat): (s: string)
    ensures |s| >= 1 && AllDigits(s)
  {
    if n < 10 then [DigitChar(n)] else NatToString(n / 10) + [DigitChar(n % 10)]
  }

  /** Python's `str(i)` for an integer. */
  function IntToString(i: int): (s: string)
    ensures |s| >= 1
    ensures forall k :: 0 <= k < |s| ==> IsDigit(s[k]) || s[k] == '-'
  {
    if i < 0 then "-" + NatToString(-i) else NatToString(i)
  }

  /** Value of a string of decimal digits. */
  function ParseNat(s: string): nat
    requires AllDigits(s)
  {
    if |s| == 0 then 0 else ParseNat(s[..|s| - 1]) * 10 + DigitValue(s[|s| - 1])
  }

  /** Python's `int(s)` on the text `str` produces: an optional minus sign
      followed by at least one digit. */
  function ParseInt(s: string): Option<int>
  {
    if |s| > 0 && s[0] == '-' then
      if |s| > 1 && AllDigits(s[1..]) then Some(0 - ParseNat(s[1..]) as int) else None
    else if |s| > 0 && AllDigits(s) then Some(ParseNat(s) as int)
    else None
  }

  lemma {:induction false} ParseNatToString(n: nat)
    ensures ParseNat(NatToString(n)) == n
  {
    if n >= 10 {
      ParseNatToString(n / 10);
      var s := NatToString(n);
      assert s[..|s| - 1] == NatToString(n / 10);
    }
  }


  /** Reading back the rendering of an integer gives the integer. */
  lemma IntToStringRoundTrip(i: int)
    ensures ParseInt(IntToString(i)) == Some(i)
  {
    if i < 0 {
      var s := IntToString(i);
      assert s[1..] == NatToString(-i);
      ParseNatToString(-i);
    } else {
      assert IsDigit(NatToString(i)[0]);
      ParseNatToString(i);
    }
  }

  predicate StartsWith(s: string, prefix: string)
  {
    |prefix| <= |s| && s[..|prefix|] == prefix
  }

  /** Python's `needle in s` for two strings. */
  predicate IsSubstring(needle: string, s: string)
  {
    StartsWith(s, needle) || (|s| > 0 && IsSubstring(needle, s[1..]))
  }

  /** Index of the first occurrence of `c` in `s`, or `|s|` when there is none. */
  function FirstIndex(s: string, c: char): (k: nat)
    ensures k <= |s|
    ensures k < |s| ==> s[k] == c
    ensures forall j :: 0 <= j < k ==> s[j] != c
  {
    if |s| == 0 then 0
    else if s[0] == c then 0
    else 1 + FirstIndex(s[1..], c)
  }
}

=== FILE: wrappers.dfy ===
/** Failure-compatible Option and Result datatypes used throughout the model. */
module Wrappers {

  datatype Option<+T> = None | Some(value: T) {

    predicate IsFailure() {
      None?
    }

    function PropagateFailure<U>(): Option<U>
      requires None?
    {
      None
    }

    function Extract(): T
      requires Some?
    {
      value
    }
  }

  datatype Result<+R, +E> = Success(value: R) | Failure(error: E) {

    predicate IsFailure() {
      Failure?
    }

    function PropagateFailure<U>(): Result<U, E>
      requires Failure?
    {
      Failure(error)
    }

    function Extract(): R
      requires Success?
    {
      value
    }
  }
}
